=== FILE: README.md ===
# Dashboard start page: verified model of its list logic

The start page keeps three lists in the browser:

- a row of **shortcut tiles** that can be reordered by dragging and edited in a modal, persisted as an array of `{id, name, link, img}` records;
- a **to-do list** of strings;
- a **search history** that feeds the suggestion box beside live suggestions from a search engine.

This project models the logic behind those lists as pure Dafny functions over sequences and proves what the page relies on. The DOM, storage and network are abstracted away.

Modules:

- `Wrappers`: `Option` and `Result`.
- `Text`: `String.prototype.trim` with the ECMAScript whitespace set, ASCII `toLowerCase`, and `includes`.
- `Seqs`:
  - no-duplicates;
  - order-preserving subsequences;
  - removing and inserting at a position;
  - `filter`;
  - `[...a, ...b].slice(0, n)`.
- `Url`: `normalizeUrl`.
- `Shortcuts`: the tile list's `save` and `load`, plus an independent description of what `load` produces.
- `TileManager`: the component around the tiles. It covers edit mode, the drag session (`dragstart`, `dragover` with `getDragAfterElement`, `dragend`), and the editor (open, image-URL change, save, close).
- `Todo`: `addItem` and the delete handler.
- `Search`: `saveToHistory`, the submit handler, and the suggestion list built by `handleSuggestions`.

DOM identity is modelled by position:

- The tile list is a `seq<Tile>` in display order.
- `draggedItem` and `currentEditElement` are indices into it.
- A drag-over moves the dragged tile, and both indices follow their tiles.
- Tile geometry is replaced by one integer vertical midpoint per tile, passed with each drag-over event.

## Model

| member | source | states |
|---|---|---|
| Text.Trim | script.js:50 | The result neither starts nor ends with whitespace. It is the infix of the input with only whitespace around it. It is empty exactly when the input is all whitespace. An already-trimmed string is returned unchanged. |
| Text.TrimIdempotent | script.js:50 | Trimming twice is trimming once. |
| Text.ContainsIffOccurs | search.js:62 | The left-to-right `includes` scan succeeds exactly when the needle occurs at some offset. |
| Text.Lower | search.js:59-62 | `toLowerCase` keeps the length, leaves no upper-case ASCII letter, keeps every other character, and maps each upper-case ASCII letter to its lower-case partner. |
| Text.LowerIdempotent | search.js:59-62 | Lower-casing twice is lower-casing once. |
| Url.HasSchemeIffRegex | script.js:51 | The scheme test agrees with the regular expression `^[a-z][a-z0-9+.-]*:` read literally: a colon preceded by a lower-case letter and then scheme characters only. |
| Url.NormalizeUrl | script.js:48-54 | Only the empty string normalises to the empty string. Every other input, whitespace-only included, gives a trimmed string starting with a lower-case scheme and a colon. |
| Url.NormalizeUrlCases | script.js:50-53 | There are three outcomes. An input whose trimmed form matches the scheme regex comes back trimmed. A trimmed form starting with `//` gets `https:` prepended. Anything else gets `https://` in front of what remains after its maximal run of leading slashes. |
| Url.NormalizeUrlIdempotent | script.js:48-54 | Normalising a normalised link changes nothing. |
| Url.NormalizeBareHost | script.js:53 | A trimmed host with no colon and no leading slash gets `https://` in front and is otherwise kept. |
| Url.NormalizeUpperCaseScheme | script.js:51-53 | The scheme test is case-sensitive. `HTTP://x` gets `https://` prepended like a host name. |
| Url.NormalizeBlank | script.js:49-53 | Whitespace-only input is not the empty string, so it normalises to `https://`. |
| Shortcuts.Save | script.js:288-296 | One record per tile, in display order. Each record holds the tile's id, its trimmed name, its link and its icon source. |
| Shortcuts.Lookup | script.js:302 | `querySelector` by id finds the first tile in document order that carries the id. It finds nothing exactly when no tile has the id. |
| Shortcuts.LookupAt | script.js:302 | Conversely, whenever a tile is the first to carry the id, that is the tile found. |
| Shortcuts.RemoveFirstFacts | script.js:302-307 | Taking the found tile out removes exactly that tile and that id, and the remaining tiles keep their order. |
| Shortcuts.RemoveFirstAt | script.js:302-307 | The tile taken out sits where the first tile with the id sits. The list is the tiles before it followed by the tiles after it. |
| Shortcuts.Step | script.js:301-307 | A record whose id matches no tile is skipped. Otherwise the matching tile takes the record's name, link and icon and moves to the end, and the others keep their order. The multiset of ids never changes. |
| Shortcuts.StepAt | script.js:302-307 | The tile a step moves is the first one in document order carrying the record's id. The result is the tiles before it, then the tiles after it, then that tile with the record's fields. |
| Shortcuts.Load | script.js:301-308 | Applying the records keeps the number of tiles and the multiset of ids: the result is a reordering of the same tiles. |
| Shortcuts.LoadStored | script.js:298-310 | A missing key, a stored `null` or a non-array JSON value leaves the tiles as they are. Text that is not JSON throws a syntax error. A stored array loads exactly when it has no `null` element, and then gives `Load` of its records. An array with a `null` element throws at that element. |
| Shortcuts.LoadElementsFacts | script.js:300-308 | Walking a stored array succeeds exactly when no element is `null`. It then equals applying the records in order. |
| Shortcuts.LoadElementsThrows | script.js:301-302 | With a `null` element, `d.id` throws at the first one. The records before it have already been applied to the tiles. |
| Shortcuts.WrittenLoads | script.js:288-310 | The array `save` writes always loads without error. |
| Shortcuts.LoadMatchesReference | script.js:298-310 | With unique tile ids and unique record ids, `load` first yields the tiles no record names, in their original order. The matched tiles follow, with their stored fields, in stored order. |
| Shortcuts.ReloadRestores | script.js:288-310 | Reloading restores what was saved. The page's default tiles carry the same unique ids, names are trimmed, and `load` after `save` rebuilds the saved order and fields. |
| Shortcuts.LoadSaveRoundTrip | script.js:288-310 | `load(save(tiles))` on the same page gives back the tiles. |
| TileManager.Init | script.js:298-311 | After loading, edit mode is off, nothing is dragged or edited, and the tiles are exactly what `load` made of the defaults and the stored value. Loading fails exactly when the stored text is not JSON or the stored array has a `null` element, with the error `load` throws. |
| TileManager.ToggleEditMode | script.js:345-354 | The edit button flips the mode and changes nothing else. |
| TileManager.DragAfter | script.js:314-322 | No tile is returned exactly when no midpoint lies below the cursor. Otherwise the tile returned has the smallest midpoint below the cursor, and the earliest such tile wins a tie. |
| TileManager.DragStart | script.js:324-328 | Ignored while edit mode is off. Otherwise it records the tile the drag started on, and nothing else changes. |
| TileManager.DragOver | script.js:336-342 | A no-op unless edit mode is on and a tile is dragged. Otherwise the dragged tile is placed before the tile `getDragAfterElement` picks among the others, or at the end when none qualifies. The other tiles keep their order, no tile is lost or duplicated, and the editor follows its tile by position: onto the dragged tile's new place if that is the one open, otherwise to the place its tile now has among the others. When no tile is open in the editor, none is afterwards. The mode and the editor's inputs stay as they were. |
| TileManager.DragEnd | script.js:330-334 | Ends the drag session and writes the records of the tiles. The tiles, the mode, the editor target and the editor's inputs stay as they were. |
| TileManager.OpenEditor | script.js:376-390 | In edit mode a click on a tile makes it the target and fills the name, link and preview from it. The tiles, the mode, the drag and the image-URL field stay as they were. Otherwise nothing changes. |
| TileManager.ImageUrlChanged | script.js:426-428 | A non-blank image URL, trimmed, becomes the preview, and nothing else changes. A blank one changes nothing. |
| TileManager.CloseEditor | script.js:367-373 | Forgets the target and clears the image-URL field. The tiles, the mode, the drag and the other inputs stay as they were. |
| TileManager.EditedTile | script.js:398-404 | The name is the trimmed input, or `Shortcut` if that is blank. The link is the normalised input, so an empty link field is stored as the empty string and a whitespace-only one as `https://`. The icon is the preview, and the id is kept. |
| TileManager.SaveEdit | script.js:392-409 | With no target nothing happens. Otherwise only the target tile changes, the tiles are written, and the editor is closed with only its image-URL field cleared. The mode and the drag stay as they were. |
| TileManager.EditSurvivesReload | script.js:288-310 | The records an editor save writes reload into the same tiles. |
| TileManager.DragSurvivesReload | script.js:330-342 | The records a `dragend` writes after a drag-over reload into the dragged order. |
| Todo.AddItem | script.js:246-251 | Blank input is ignored. Otherwise the trimmed, non-blank text is appended as the last item. |
| Todo.IndexOf | script.js:223 | `indexOf` gives the first position holding the text, or -1 exactly when it is absent. |
| Todo.Splice1 | script.js:223 | `splice(start, 1)` removes the element at `start` when it is in range. Start -1 removes the last element, and a start past the end removes nothing. |
| Todo.DeleteAbsentDropsLast | script.js:223 | When the text is no longer in the list, the handler as written deletes the last item. |
| Todo.DeleteAsWritten | script.js:223 | `splice(indexOf(text), 1)` removes the first copy of a present item. For an absent item it removes the last item of a non-empty list. |
| Todo.DeleteAsWrittenOnClicks | script.js:220-227 | Each click before `animationend` adds a listener that runs the delete, so every click removes at most one item. |
| Todo.DeleteOnClicks | script.js:220-227 | The handler the button needs: any number of clicks removes one copy of the item, and no click changes nothing. |
| Todo.DoubleFireLosesOther | script.js:220-227 | Two clicks on the delete button of `x` in `[x, y]` also lose `y` as written. With one delete per button, `y` stays. |
| Todo.DoubleFireLosesCopy | script.js:220-227 | Two clicks on one of two equal items empty the list as written. With one delete per button, the other copy stays. |
| Todo.ClicksDeleteOnce | script.js:220-227 | For every list, any positive number of clicks under the corrected handler removes one copy of the item and keeps every other item as often as before. While the item is in the list, that is exactly one run of the handler as written. |
| Todo.Delete | script.js:223 | The intended delete removes exactly the first occurrence of the text, and removes nothing when the text is absent. |
| Todo.DeleteAgreesWhenPresent | script.js:223 | While the item is present, the handler as written and the intended delete agree. |
| Todo.DeleteTwice | script.js:223 | For an item occurring once, the intended delete is idempotent. |
| Todo.AddKeepsClean | script.js:246-251 | Adding keeps every item trimmed and non-blank. |
| Todo.DeleteKeepsClean | script.js:223 | The intended delete keeps every item trimmed and non-blank. |
| Todo.DeleteAsWrittenKeepsClean | script.js:223 | The handler as written keeps every item trimmed and non-blank too, even when it removes the wrong item. |
| Search.Without | search.js:23 | Filtering out the query keeps every other entry as often as before and in order, and drops every copy of the query. |
| Search.SaveToHistory | search.js:20-27 | An empty query changes nothing. Otherwise the query comes first and occurs once. It is followed by the other entries in their old order, cut so that at most 10 remain. |
| Search.SaveKeepsOthers | search.js:23-25 | No other entry is lost while the list has room. |
| Search.SaveKeepsRecent | search.js:20-27 | A history of distinct entries, at most 10 of them, stays so. |
| Search.SaveIdempotent | search.js:20-27 | Saving the same query twice is saving it once. |
| Search.Submit | search.js:29-34 | Blank input leaves the history alone. Otherwise the new history is `saveToHistory` of the trimmed input, which heads it. |
| Search.SubmitKeepsClean | search.js:29-34 | Submitting keeps the history distinct, bounded, trimmed and non-blank. |
| Search.HistoryMatches | search.js:62 | The history matches keep history order. |
| Search.HistoryMatchesCounts | search.js:62 | Every matching entry is kept as often as the history holds it, and every other entry is dropped. |
| Search.HistoryMatchesMembers | search.js:62 | An entry is a history match exactly when its lower-cased text contains the lower-cased input. |
| Search.UniqueLive | search.js:64 | A live suggestion is dropped exactly when it equals a history match, compared case-sensitively. The rest keep the server's order and every copy the server sent. |
| Search.LiveOf | search.js:58 | The live suggestions are `data[1]` as sent, or none when the answer has no suggestion array. |
| Search.Suggestions | search.js:66 | At most three suggestions, or fewer when there are fewer candidates. |
| Search.SuggestionsOrder | search.js:66 | The suggestions are a prefix of the history matches followed by the unique live suggestions. |
| Search.SuggestionsFrom | search.js:57-66 | Every suggestion is a matching history entry or a live suggestion that is not one. |
| Search.SuggestionsDistinct | search.js:57-66 | No suggestion appears twice when history and live suggestions are each distinct. |
| Search.EmptyInputShowsHistory | search.js:62-66 | The empty query matches every entry, so with at least three history entries the suggestions are the three newest. With fewer, live suggestions fill the remaining places. The page asks for suggestions only for a non-empty input, so this case arises only when the input is cleared before the answer arrives. |

## Left out

- DOM geometry: `getBoundingClientRect` is replaced by one integer midpoint per tile. The half-pixel arithmetic of `box.top + box.height / 2` is not modelled.
- The `setTimeout` that adds the `dragging` class: the dragged tile is always left out of the drop candidates. The model ignores the short window before the timeout runs, in which the browser would still count it.
- Class, ARIA, `draggable`, focus and `alt` updates, and the modal's visibility: they carry no list state.
- JSON and `localStorage`: stored values are given to the model already parsed.
  - For the tiles this is `Shortcuts.Stored`.
  - For the history and the to-do list it is a plain sequence.
  - Records with missing fields are not modelled.
  - Loading the to-do list at start-up is not modelled.
- Shortcuts.LoadStored: array elements that are neither records nor `null` are not modelled. A number or a string reads `d.id` as `undefined` and is skipped unless a tile's id is the text `undefined`.
- TileManager.Init: array elements that are neither records nor `null` are not modelled, for the same reason as in `LoadStored`.
- The history read by `getHistory` is not modelled; the model takes it as given. A stored value that is not an array is not modelled either.
- `.src` reads the browser's resolved absolute URL, while `getAttribute("src")` reads the raw value. Both are modelled as the same string.
- The `querySelector` attribute selector `[data-id="…"]`: ids are compared as strings, and quoting issues in the selector are not modelled.
- The file input and `FileReader` preview: asynchronous I/O.
- The JSONP request to the suggestion service: network I/O. Its answer `data[1]` is a parameter.
- Rendering of the suggestion box and of the to-do list items.
- The animation that delays a to-do delete until `animationend`: it is modelled only as the number of clicks that land before it ends, each adding one run of the handler.
- Text.Lower: `toLowerCase` is modelled for ASCII letters only, because Unicode case mapping is outside this model. Other letters are kept unchanged.
- Search.HistoryMatches: `toLowerCase` is modelled for ASCII letters only. Other letters compare unchanged.
- Search.HistoryMatchesMembers: for the same reason, matching ignores case only for ASCII letters.
- Search.HistoryMatchesCounts: for the same reason, matching ignores case only for ASCII letters.
- Settings, themes, import/export, the clock and greeting, the weather and price widgets, and the ripple effect: they are outside the list logic.

Three behaviours of the code a reader might not expect:

- Nothing catches the exceptions `load` can raise, so corrupt stored data stops the shortcut setup. Text that is not JSON makes `JSON.parse` throw, which is `Failure(SyntaxError)` here. A `null` element in the stored array makes `d.id` throw, which is `Failure(NullElement(…))`. Settings import (script.js:604) can write such an array.
- Leaving the editor's link field empty does not keep the existing link. The code stores `normalizeUrl("")`, which is the empty string.
- There is no placeholder while dragging. The code moves the dragged tile itself on every `dragover` and only saves on `dragend`.

## Findings

| source | as written | input that shows it | evidently intended | confidence | as-written member | corrected member |
|---|---|---|---|---|---|---|
| script.js:220-227 | Each click on a to-do delete button adds another `once` listener for `animationend`. Two clicks before the animation ends make both listeners run. The second finds no item (`indexOf` gives -1), and `splice(-1, 1)` removes the last item. | list `["a", "b"]`, delete `"a"` clicked twice | however often one item's delete button is clicked, one copy of that item is removed and nothing else | not executed | Todo.DoubleFireLosesOther | Todo.ClicksDeleteOnce |

=== FILE: search.dfy ===
/** The search box of search.js: the most-recently-used history kept under
    `homepageSearchHistory`, and the suggestion list that combines history
    matches with the live suggestions returned for the typed query. */
module Search {
  import opened Wrappers
  import opened Text
  import opened Seqs

  /** `slice(0, 10)` in `saveToHistory`. */
  const HistoryLimit: nat := 10

  /** `slice(0, 3)` in `handleSuggestions`. */
  const SuggestionLimit: nat := 3

  /** A well-kept history: distinct entries, at most `HistoryLimit` of them. */
  predicate Recent(h: seq<string>) {
    NoDup(h) && |h| <= HistoryLimit
  }

  /** `history.filter(item => item !== query)`. */
  function Without(h: seq<string>, q: string): (r: seq<string>)
    ensures IsSubsequence(r, h)
    ensures forall x :: x in r <==> x in h && x != q
    ensures multiset(r)[q] == 0
    ensures forall x :: x != q ==> multiset(r)[x] == multiset(h)[x]
  {
    var r := Filter(h, x => x != q);
    FilterFacts(h, x => x != q);
    forall x ensures x in r <==> x in h && x != q {
      FilterMembers(h, x => x != q, x);
    }
    r
  }

  /** `saveToHistory`: an empty query is ignored; otherwise the query
      moves (or is added) to the front, any older copy of it is dropped and
      the list is cut to `HistoryLimit` entries. */
  function SaveToHistory(h: seq<string>, q: string): (r: seq<string>)
    ensures q == [] ==> r == h
    ensures q != [] ==>
      && |r| == Min(HistoryLimit, |Without(h, q)| + 1)
      && r[0] == q && q !in r[1..]
      && r[1..] == Without(h, q)[..|r| - 1]
      && IsSubsequence(r[1..], h)
  {
    if q == [] then h
    else
      var w := Without(h, q);
      var n := Min(HistoryLimit, |w| + 1);
      var r := ([q] + w)[..n];
      assert r[1..] == w[..n - 1];
      SubsequencePrefix(w, h, n - 1);
      assert q !in w[..n - 1] by {
        assert q !in w;
        assert forall i :: 0 <= i < n - 1 ==> w[..n - 1][i] == w[i];
      }
      r
  }

  /** An entry other than the query survives saving when the list does
      not overflow. */
  lemma SaveKeepsOthers(h: seq<string>, q: string, x: string)
    requires q != [] && x in h && x != q && |Without(h, q)| < HistoryLimit
    ensures x in SaveToHistory(h, q)
  {
    var r := SaveToHistory(h, q);
    assert r[1..] == Without(h, q);
    assert x in r[1..];
  }

  /** Saving keeps the history distinct and bounded. */
  lemma SaveKeepsRecent(h: seq<string>, q: string)
    requires Recent(h)
    ensures Recent(SaveToHistory(h, q))
  {
    if q != [] {
      var r := SaveToHistory(h, q);
      var w := Without(h, q);
      FilterNoDup(h, x => x != q);
      NoDupPrefix(w, |r| - 1);
      assert r == [q] + r[1..];
      NoDupCons(q, r[1..]);
    }
  }

  lemma NoDupPrefix(s: seq<string>, n: nat)
    requires NoDup(s) && n <= |s|
    ensures NoDup(s[..n])
  {
  }

  /** Saving the same query twice is saving it once. */
  lemma SaveIdempotent(h: seq<string>, q: string)
    ensures SaveToHistory(SaveToHistory(h, q), q) == SaveToHistory(h, q)
  {
    if q != [] {
      var r := SaveToHistory(h, q);
      var w := Without(h, q);
      var n := |r| - 1;
      var w2 := Without(r, q);
      assert r == [q] + w[..n];
      WithoutOfFree(w[..n], q);
      assert w2 == w[..n] by {
        WithoutCons(q, w[..n]);
      }
    }
  }

  lemma WithoutCons(q: string, s: seq<string>)
    ensures Without([q] + s, q) == Without(s, q)
  {
    assert ([q] + s)[1..] == s;
  }

  /** Filtering out a query that does not occur changes nothing. */
  lemma {:induction false} WithoutOfFree(s: seq<string>, q: string)
    requires q !in s
    ensures Without(s, q) == s
    decreases |s|
  {
    if s != [] {
      WithoutOfFree(s[1..], q);
      assert s == [s[0]] + s[1..];
    }
  }

  /** The submit handler: the trimmed input is saved unless it is blank. */
  function Submit(h: seq<string>, input: string): (r: seq<string>)
    ensures AllSpace(input) ==> r == h
    ensures !AllSpace(input) ==> r != [] && r[0] != [] && IsTrimmed(r[0])
    ensures !AllSpace(input) ==> exists i :: TrimmedAt(input, r[0], i)
    ensures !AllSpace(input) ==> r == SaveToHistory(h, Trim(input))
  {
    var query := Trim(input);
    if query != [] then SaveToHistory(h, query) else h
  }

  /** Entries of a history built only by submitting: distinct, bounded,
      trimmed and non-blank. */
  predicate CleanHistory(h: seq<string>) {
    Recent(h) && forall x :: x in h ==> x != [] && IsTrimmed(x)
  }

  lemma SubmitKeepsClean(h: seq<string>, input: string)
    requires CleanHistory(h)
    ensures CleanHistory(Submit(h, input))
  {
    var q := Trim(input);
    if q != [] {
      SaveKeepsRecent(h, q);
      var r := SaveToHistory(h, q);
      SubsequenceMembers(r[1..], h);
      assert r == [q] + r[1..];
    }
  }

  /** `history.filter(item => item.toLowerCase().includes(query))`, with
      `query` the lower-cased input. */
  function HistoryMatches(history: seq<string>, input: string): (r: seq<string>)
    ensures IsSubsequence(r, history)
  {
    var query := Lower(input);
    FilterFacts(history, x => Contains(Lower(x), query));
    Filter(history, x => Contains(Lower(x), query))
  }

  /** Every matching entry is kept as often as the history holds it, and
      every other entry is dropped. */
  lemma HistoryMatchesCounts(history: seq<string>, input: string)
    ensures forall x ::
      multiset(HistoryMatches(history, input))[x] == if Contains(Lower(x), Lower(input)) then multiset(history)[x] else 0
  {
    var query := Lower(input);
    FilterFacts(history, x => Contains(Lower(x), query));
  }

  /** An entry is a history match exactly when it is in the history and
      its lower-cased text contains the lower-cased input. */
  lemma HistoryMatchesMembers(history: seq<string>, input: string, x: string)
    ensures x in HistoryMatches(history, input) <==> x in history && Contains(Lower(x), Lower(input))
  {
    var query := Lower(input);
    FilterMembers(history, x => Contains(Lower(x), query), x);
  }

  /** `liveSuggestions.filter(item => !historySuggestions.includes(item))`:
      the comparison here is exact, not case-insensitive. */
  function UniqueLive(live: seq<string>, matches: seq<string>): (r: seq<string>)
    ensures IsSubsequence(r, live)
    ensures forall x :: x in r <==> x in live && x !in matches
    ensures forall x :: multiset(r)[x] == if x !in matches then multiset(live)[x] else 0
  {
    var r := Filter(live, x => x !in matches);
    FilterFacts(live, x => x !in matches);
    forall x ensures x in r <==> x in live && x !in matches {
      FilterMembers(live, x => x !in matches, x);
    }
    r
  }

  /** `data[1] || []`: a response without a suggestion array counts as
      none. */
  function LiveOf(data: Option<seq<string>>): (r: seq<string>)
    ensures data.None? ==> r == []
    ensures data.Some? ==> r == data.value
  {
    if data.Some? then data.value else []
  }

  /** `handleSuggestions`: history matches first, then the live suggestions
      that are not among them, at most `SuggestionLimit` in all. */
  function Suggestions(history: seq<string>, data: Option<seq<string>>, input: string): (r: seq<string>)
    ensures |r| == Min(SuggestionLimit, |HistoryMatches(history, input)| + |UniqueLive(LiveOf(data), HistoryMatches(history, input))|)
  {
    var hm := HistoryMatches(history, input);
    TakeJoined(hm, UniqueLive(LiveOf(data), hm), SuggestionLimit)
  }

  /** The history matches come first, in history order, and the remaining
      places go to the unique live suggestions, in the server's order. */
  lemma SuggestionsOrder(history: seq<string>, data: Option<seq<string>>, input: string, i: nat)
    requires i < |Suggestions(history, data, input)|
    ensures var hm := HistoryMatches(history, input);
      var r := Suggestions(history, data, input);
      && (i < |hm| ==> r[i] == hm[i])
      && (i >= |hm| ==> r[i] == UniqueLive(LiveOf(data), hm)[i - |hm|])
  {
  }

  /** Every suggestion shown is either a history entry containing the
      typed text (ignoring case) or a live suggestion that is not one of
      those history matches. */
  lemma SuggestionsFrom(history: seq<string>, data: Option<seq<string>>, input: string, x: string)
    requires x in Suggestions(history, data, input)
    ensures || (x in history && Contains(Lower(x), Lower(input)))
            || (x in LiveOf(data) && x !in HistoryMatches(history, input))
  {
    var hm := HistoryMatches(history, input);
    var ul := UniqueLive(LiveOf(data), hm);
    var r := Suggestions(history, data, input);
    var i :| 0 <= i < |r| && r[i] == x;
    if i < |hm| {
      assert x in hm;
      HistoryMatchesMembers(history, input, x);
    } else {
      assert x in ul;
    }
  }

  /** No suggestion is shown twice when the history and the live list
      each hold distinct entries. */
  lemma SuggestionsDistinct(history: seq<string>, data: Option<seq<string>>, input: string)
    requires NoDup(history) && NoDup(LiveOf(data))
    ensures NoDup(Suggestions(history, data, input))
  {
    var hm := HistoryMatches(history, input);
    var ul := UniqueLive(LiveOf(data), hm);
    var query := Lower(input);
    FilterNoDup(history, x => Contains(Lower(x), query));
    FilterNoDup(LiveOf(data), x => x !in hm);
    var all := hm + ul;
    NoDupAppend(hm, ul);
    NoDupPrefix(all, Min(SuggestionLimit, |all|));
  }

  /** An empty query matches the whole history: with an empty input the
      suggestions are the first entries of the history. The page asks for
      suggestions only for a non-empty input (search.js:39-43), so this
      happens only when the input is cleared before the answer arrives, and
      the suggestion box is hidden by then. */
  lemma EmptyInputShowsHistory(history: seq<string>, data: Option<seq<string>>)
    requires |history| >= SuggestionLimit
    ensures Suggestions(history, data, []) == history[..SuggestionLimit]
  {
    var hm := HistoryMatches(history, []);
    forall x | x in history ensures Contains(Lower(x), []) {
      ContainsEmpty(Lower(x));
    }
    assert Lower([]) == [];
    HistoryMatchesAll(history, []);
    assert hm == history;
    TakeJoinedPrefix(hm, UniqueLive(LiveOf(data), hm), SuggestionLimit);
  }

  /** When every entry matches, the matches are the whole history. */
  lemma HistoryMatchesAll(history: seq<string>, input: string)
    requires forall x :: x in history ==> Contains(Lower(x), Lower(input))
    ensures HistoryMatches(history, input) == history
  {
    var query := Lower(input);
    FilterAll(history, x => Contains(Lower(x), query));
  }
}

=== FILE: seqs.dfy ===
/** Generic facts about sequences: no duplicates, and order-preserving
    sub-selection. */
module Seqs {

  /** No element occurs twice. */
  predicate NoDup<T(==)>(s: seq<T>) {
    forall i, j :: 0 <= i < j < |s| ==> s[i] != s[j]
  }

  /** `a` can be obtained from `b` by deleting elements, without reordering. */
  predicate IsSubsequence<T(==)>(a: seq<T>, b: seq<T>)
    decreases |b|
  {
    a == [] || (b != [] && ((a[0] == b[0] && IsSubsequence(a[1..], b[1..])) || IsSubsequence(a, b[1..])))
  }

  lemma {:induction false} SubsequenceRefl<T>(a: seq<T>)
    ensures IsSubsequence(a, a)
    decreases |a|
  {
    if a != [] {
      SubsequenceRefl(a[1..]);
    }
  }

  /** Dropping the tail of a subsequence keeps it a subsequence. */
  lemma {:induction false} SubsequencePrefix<T>(a: seq<T>, b: seq<T>, n: nat)
    requires IsSubsequence(a, b) && n <= |a|
    ensures IsSubsequence(a[..n], b)
    decreases |b|
  {
    if n == 0 || a == [] {
    } else if a[0] == b[0] && IsSubsequence(a[1..], b[1..]) {
      SubsequencePrefix(a[1..], b[1..], n - 1);
      assert a[..n][1..] == a[1..][..n - 1];
    } else {
      SubsequencePrefix(a, b[1..], n);
    }
  }

  /** Every element of a subsequence comes from the sequence. */
  lemma {:induction false} SubsequenceMembers<T>(a: seq<T>, b: seq<T>)
    requires IsSubsequence(a, b)
    ensures forall x :: x in a ==> x in b
    decreases |b|
  {
    if a == [] {
    } else if a[0] == b[0] && IsSubsequence(a[1..], b[1..]) {
      SubsequenceMembers(a[1..], b[1..]);
      assert forall x :: x in a ==> x == a[0] || x in a[1..];
    } else {
      SubsequenceMembers(a, b[1..]);
    }
  }

  lemma NoDupCons<T>(x: T, s: seq<T>)
    ensures NoDup([x] + s) <==> x !in s && NoDup(s)
  {
    var t := [x] + s;
    assert forall i :: 0 <= i < |s| ==> t[i + 1] == s[i];
    if NoDup(t) {
      forall k | 0 <= k < |s| ensures s[k] != x {
        assert t[0] != t[k + 1];
      }
      forall i, j | 0 <= i < j < |s| ensures s[i] != s[j] {
        assert t[i + 1] != t[j + 1];
      }
    }
    if x !in s && NoDup(s) {
      forall i, j | 0 <= i < j < |t| ensures t[i] != t[j] {
        if i == 0 {
          assert t[j] == s[j - 1];
        } else {
          assert t[i] == s[i - 1] && t[j] == s[j - 1];
        }
      }
    }
  }

  lemma NoDupSnoc<T>(s: seq<T>, x: T)
    ensures NoDup(s + [x]) <==> x !in s && NoDup(s)
  {
    var t := s + [x];
    assert forall i :: 0 <= i < |s| ==> t[i] == s[i];
    if NoDup(t) {
      forall k | 0 <= k < |s| ensures s[k] != x {
        assert t[k] != t[|s|];
      }
    }
  }

  /** `s` with the element at `k` taken out. */
  function RemoveAt<T>(s: seq<T>, k: nat): (r: seq<T>)
    requires k < |s|
    ensures |r| == |s| - 1
    ensures forall i :: 0 <= i < k ==> r[i] == s[i]
    ensures forall i :: k <= i < |r| ==> r[i] == s[i + 1]
  {
    s[..k] + s[k + 1..]
  }

  /** `s` with `x` placed at position `p`, the elements from `p` on shifted up. */
  function InsertAt<T>(s: seq<T>, p: nat, x: T): (r: seq<T>)
    requires p <= |s|
    ensures |r| == |s| + 1 && r[p] == x
    ensures forall i :: 0 <= i < p ==> r[i] == s[i]
    ensures forall i :: p < i < |r| ==> r[i] == s[i - 1]
  {
    s[..p] + [x] + s[p..]
  }

  lemma RemoveInsert<T>(s: seq<T>, p: nat, x: T)
    requires p <= |s|
    ensures RemoveAt(InsertAt(s, p, x), p) == s
  {
  }

  /** Moving one element keeps the multiset of elements. */
  lemma MoveKeepsMultiset<T>(s: seq<T>, k: nat, p: nat)
    requires k < |s| && p < |s|
    ensures multiset(InsertAt(RemoveAt(s, k), p, s[k])) == multiset(s)
  {
    var others := RemoveAt(s, k);
    assert others == s[..k] + s[k + 1..];
    assert s == s[..k] + [s[k]] + s[k + 1..];
    var r := InsertAt(others, p, s[k]);
    assert r == others[..p] + [s[k]] + others[p..];
    assert others == others[..p] + others[p..];
    assert multiset(r) == multiset(others) + multiset{s[k]};
    assert multiset(s) == multiset(others) + multiset{s[k]};
  }

  /** Where the element that was at `e` ends up when the one at `k` moves to `p`. */
  function Track(e: nat, k: nat, p: nat): nat {
    if e == k then p
    else
      var e' := if e < k then e else e - 1;
      if e' < p then e' else e' + 1
  }

  /** Position `t` after moving the element at `k` to `p` holds what
      position `e` held before: the moved element lands on `p`, and any other
      lands off `p`, at the place it had among the others. */
  predicate Follows(e: nat, k: nat, p: nat, t: nat) {
    && (e == k ==> t == p)
    && (e != k ==> t != p && (if t < p then t else t - 1) == (if e < k then e else e - 1))
  }

  lemma TrackInverse(e: nat, k: nat, p: nat)
    ensures Follows(e, k, p, Track(e, k, p))
  {
  }

  /** Where the element now at `i` came from when the one at `k` moved to `p`. */
  function Source(i: nat, k: nat, p: nat): nat {
    if i == p then k
    else
      var j := if i < p then i else i - 1;
      if j < k then j else j + 1
  }

  lemma TrackFollows<T>(xs: seq<T>, k: nat, p: nat, e: nat)
    requires k < |xs| && p < |xs| && e < |xs|
    ensures Track(e, k, p) < |xs| && InsertAt(RemoveAt(xs, k), p, xs[k])[Track(e, k, p)] == xs[e]
  {
  }

  lemma SourceFinds<T>(xs: seq<T>, k: nat, p: nat, i: nat)
    requires k < |xs| && p < |xs| && i < |xs|
    ensures Source(i, k, p) < |xs| && InsertAt(RemoveAt(xs, k), p, xs[k])[i] == xs[Source(i, k, p)]
  {
  }

  lemma SourceInjective(i: nat, j: nat, k: nat, p: nat)
    requires i != j
    ensures Source(i, k, p) != Source(j, k, p)
  {
  }

  /** Moving one element neither adds nor loses a member, and keeps the
      elements distinct. */
  lemma MoveKeepsMembers<T>(xs: seq<T>, k: nat, p: nat)
    requires k < |xs| && p < |xs|
    ensures var r := InsertAt(RemoveAt(xs, k), p, xs[k]);
      && (forall x :: x in r <==> x in xs)
      && (NoDup(xs) ==> NoDup(r))
  {
    var r := InsertAt(RemoveAt(xs, k), p, xs[k]);
    forall x | x in xs ensures x in r {
      var j :| 0 <= j < |xs| && xs[j] == x;
      TrackFollows(xs, k, p, j);
    }
    forall x | x in r ensures x in xs {
      var i :| 0 <= i < |r| && r[i] == x;
      SourceFinds(xs, k, p, i);
    }
    if NoDup(xs) {
      forall i, j | 0 <= i < j < |r| ensures r[i] != r[j] {
        SourceFinds(xs, k, p, i);
        SourceFinds(xs, k, p, j);
        SourceInjective(i, j, k, p);
      }
    }
  }

  /** `s.filter(p)`: the elements satisfying `p`, in their order. */
  function Filter<T(!new)>(s: seq<T>, p: T -> bool): (r: seq<T>)
    ensures |r| <= |s|
    decreases |s|
  {
    if s == [] then []
    else if p(s[0]) then [s[0]] + Filter(s[1..], p)
    else Filter(s[1..], p)
  }

  /** Being a subsequence of `s` that holds every element satisfying `p`
      exactly as often as `s` does, and nothing else, characterises the
      filter. */
  lemma {:induction false} FilterFacts<T(!new)>(s: seq<T>, p: T -> bool)
    ensures IsSubsequence(Filter(s, p), s)
    ensures forall x :: multiset(Filter(s, p))[x] == if p(x) then multiset(s)[x] else 0
    decreases |s|
  {
    if s != [] {
      var rest := Filter(s[1..], p);
      FilterFacts(s[1..], p);
      assert s == [s[0]] + s[1..];
      if p(s[0]) {
        assert ([s[0]] + rest)[1..] == rest;
      }
    }
  }

  lemma FilterMembers<T(!new)>(s: seq<T>, p: T -> bool, x: T)
    ensures x in Filter(s, p) <==> x in s && p(x)
  {
    var r := Filter(s, p);
    FilterFacts(s, p);
    assert x in r <==> multiset(r)[x] > 0;
    assert x in s <==> multiset(s)[x] > 0;
  }

  /** Filtering keeps the elements distinct. */
  lemma FilterNoDup<T(!new)>(s: seq<T>, p: T -> bool)
    requires NoDup(s)
    ensures NoDup(Filter(s, p))
  {
    var r := Filter(s, p);
    FilterFacts(s, p);
    forall i, j | 0 <= i < j < |r| ensures r[i] != r[j] {
      if r[i] == r[j] {
        TwiceCounted(r, i, j);
        NoDupCount(s, r[i]);
      }
    }
  }

  lemma TwiceCounted<T>(r: seq<T>, i: nat, j: nat)
    requires i < j < |r| && r[i] == r[j]
    ensures multiset(r)[r[i]] >= 2
  {
    assert r == r[..j] + r[j..];
    assert r[..j][i] == r[i];
    assert r[j..][0] == r[j];
    assert multiset(r) == multiset(r[..j]) + multiset(r[j..]);
  }

  /** An element of a sequence without duplicates occurs once. */
  lemma {:induction false} NoDupCount<T>(s: seq<T>, x: T)
    requires NoDup(s)
    ensures multiset(s)[x] <= 1
    decreases |s|
  {
    if s != [] {
      assert s == [s[0]] + s[1..];
      NoDupCons(s[0], s[1..]);
      NoDupCount(s[1..], x);
      if x == s[0] {
        assert multiset(s[1..])[x] == 0;
      }
    }
  }

  /** A filter every element passes keeps the sequence whole. */
  lemma {:induction false} FilterAll<T(!new)>(s: seq<T>, p: T -> bool)
    requires forall x :: x in s ==> p(x)
    ensures Filter(s, p) == s
    decreases |s|
  {
    if s != [] {
      assert p(s[0]);
      FilterAll(s[1..], p);
    }
  }

  /** Two distinct sequences with no element in common join into a
      distinct sequence. */
  lemma NoDupAppend<T>(a: seq<T>, b: seq<T>)
    requires NoDup(a) && NoDup(b) && forall x :: x in b ==> x !in a
    ensures NoDup(a + b)
  {
    var c := a + b;
    forall i, j | 0 <= i < j < |c| ensures c[i] != c[j] {
      if i < |a| <= j {
        assert c[j] == b[j - |a|] && c[j] in b;
      } else if |a| <= i {
        assert c[i] == b[i - |a|] && c[j] == b[j - |a|];
      }
    }
  }

  function Min(a: nat, b: nat): nat {
    if a <= b then a else b
  }

  /** `[...a, ...b].slice(0, n)`. */
  function TakeJoined<T>(a: seq<T>, b: seq<T>, n: nat): (r: seq<T>)
    ensures |r| == Min(n, |a| + |b|)
    ensures forall i :: 0 <= i < |r| && i < |a| ==> r[i] == a[i]
    ensures forall i :: |a| <= i < |r| ==> r[i] == b[i - |a|]
  {
    (a + b)[..Min(n, |a| + |b|)]
  }

  /** When the first part alone fills the `n` places, only it is shown. */
  lemma TakeJoinedPrefix<T>(a: seq<T>, b: seq<T>, n: nat)
    requires n <= |a|
    ensures TakeJoined(a, b, n) == a[..n]
  {
    var r := TakeJoined(a, b, n);
    assert |r| == n;
    assert forall i :: 0 <= i < n ==> r[i] == a[..n][i];
  }
}

=== FILE: shortcuts.dfy ===
/** Persistence of the shortcut tiles (`save` and `load` inside
    `initShortcuts`, script.js). The tile list is the ordered sequence of the
    list's children; the stored value is the parsed content of the
    `shortcutsData` key. */
module Shortcuts {
  import opened Wrappers
  import opened Text
  import opened Seqs

  /** One tile as the page holds it: its `data-id`, the text of its name
      label, its `href` and the source of its icon. */
  datatype Tile = Tile(id: string, name: string, link: string, img: string)

  /** One element of the stored array. */
  datatype Record = Record(id: string, name: string, link: string, img: string)

  /** What `JSON.parse(localStorage.getItem("shortcutsData") || "null")`
      produces: nothing (no key, or a stored `null`), a syntax error, a JSON
      value that is not an array, or an array whose elements are records or
      `null` (`None`). */
  datatype Stored = Missing | Unparsable | NotAnArray | Entries(elems: seq<Option<Record>>)

  /** Why `load` throws; it has no handler for either. `JSON.parse` rejects
      the text, or a `null` element makes `d.id` fail, by which time the
      elements before it have already been applied to `partial`. */
  datatype LoadError = SyntaxError | NullElement(partial: seq<Tile>)

  function Ids(tiles: seq<Tile>): seq<string>
    decreases |tiles|
  {
    if tiles == [] then [] else [tiles[0].id] + Ids(tiles[1..])
  }

  lemma {:induction false} IdsAppend(a: seq<Tile>, b: seq<Tile>)
    ensures Ids(a + b) == Ids(a) + Ids(b)
    decreases |a|
  {
    if a == [] {
      assert a + b == b;
    } else {
      assert (a + b)[1..] == a[1..] + b;
      IdsAppend(a[1..], b);
    }
  }

  lemma {:induction false} IdsIndex(tiles: seq<Tile>)
    ensures |Ids(tiles)| == |tiles|
    ensures forall i :: 0 <= i < |tiles| ==> Ids(tiles)[i] == tiles[i].id
    decreases |tiles|
  {
    if tiles != [] {
      IdsIndex(tiles[1..]);
    }
  }

  lemma IdsMembership(tiles: seq<Tile>, x: string)
    ensures x in Ids(tiles) <==> exists t :: t in tiles && t.id == x
  {
    IdsIndex(tiles);
    if x in Ids(tiles) {
      var i :| 0 <= i < |Ids(tiles)| && Ids(tiles)[i] == x;
      assert tiles[i] in tiles;
    }
  }

  /** The stored form of one tile: the name label is trimmed. */
  function ToRecord(t: Tile): Record {
    Record(t.id, Trim(t.name), t.link, t.img)
  }

  /** `save`: one record per tile, in display order. */
  function Save(tiles: seq<Tile>): (r: seq<Record>)
    ensures |r| == |tiles|
    ensures forall i :: 0 <= i < |tiles| ==>
      r[i] == Record(tiles[i].id, Trim(tiles[i].name), tiles[i].link, tiles[i].img)
    ensures forall i :: 0 <= i < |tiles| ==> IsTrimmed(r[i].name)
    decreases |tiles|
  {
    if tiles == [] then []
    else
      var rest := Save(tiles[1..]);
      assert forall i :: 1 <= i < |tiles| ==> ([ToRecord(tiles[0])] + rest)[i] == rest[i - 1];
      [ToRecord(tiles[0])] + rest
  }

  /** `tiles[i]` is the first tile, in document order, carrying id `x`. */
  predicate FirstWithId(tiles: seq<Tile>, x: string, i: int) {
    0 <= i < |tiles| && tiles[i].id == x && forall j :: 0 <= j < i ==> tiles[j].id != x
  }

  /** `list.querySelector('[data-id="…"]')`: the first tile with the id. */
  function Lookup(tiles: seq<Tile>, x: string): (r: Option<Tile>)
    ensures r.Some? ==> exists i :: FirstWithId(tiles, x, i) && tiles[i] == r.value
    ensures r.None? <==> x !in Ids(tiles)
    decreases |tiles|
  {
    if tiles == [] then None
    else if tiles[0].id == x then
      assert FirstWithId(tiles, x, 0);
      Some(tiles[0])
    else
      assert forall i :: FirstWithId(tiles[1..], x, i) ==> FirstWithId(tiles, x, i + 1);
      Lookup(tiles[1..], x)
  }

  /** The tiles with the first one carrying id `x` taken out. */
  function RemoveFirst(tiles: seq<Tile>, x: string): (r: seq<Tile>)
    ensures Lookup(tiles, x).None? ==> r == tiles
    ensures Lookup(tiles, x).Some? ==> |r| + 1 == |tiles|
    decreases |tiles|
  {
    if tiles == [] then []
    else if tiles[0].id == x then tiles[1..]
    else [tiles[0]] + RemoveFirst(tiles[1..], x)
  }

  /** What `RemoveFirst` takes out is the tile `Lookup` finds, and the
      rest keep their order. */
  lemma {:induction false} RemoveFirstFacts(tiles: seq<Tile>, x: string)
    ensures var r := RemoveFirst(tiles, x);
      && (Lookup(tiles, x).Some? ==>
        && multiset(r) + multiset{Lookup(tiles, x).value} == multiset(tiles)
        && multiset(Ids(r)) + multiset{x} == multiset(Ids(tiles)))
      && IsSubsequence(r, tiles)
    decreases |tiles|
  {
    if tiles == [] {
    } else if tiles[0].id == x {
      assert tiles == [tiles[0]] + tiles[1..];
      SubsequenceSkip(tiles);
    } else {
      var rest := RemoveFirst(tiles[1..], x);
      RemoveFirstFacts(tiles[1..], x);
      var r := [tiles[0]] + rest;
      assert tiles == [tiles[0]] + tiles[1..];
      assert multiset(tiles) == multiset{tiles[0]} + multiset(tiles[1..]);
      assert multiset(r) == multiset{tiles[0]} + multiset(rest);
      assert r[1..] == rest;
      assert Ids(r) == [tiles[0].id] + Ids(rest);
      assert Ids(tiles) == [tiles[0].id] + Ids(tiles[1..]);
    }
  }

  /** `Lookup` finds the first tile, in document order, that carries the
      id. */
  lemma {:induction false} LookupAt(tiles: seq<Tile>, x: string, i: int)
    requires FirstWithId(tiles, x, i)
    ensures Lookup(tiles, x) == Some(tiles[i])
    decreases |tiles|
  {
    if i > 0 {
      var t := tiles[1..];
      assert FirstWithId(t, x, i - 1) by {
        assert forall j :: 0 <= j < i - 1 ==> t[j] == tiles[j + 1];
      }
      LookupAt(t, x, i - 1);
    }
  }

  /** The tile taken out is that first tile: the others stay, in order. */
  lemma {:induction false} RemoveFirstAt(tiles: seq<Tile>, x: string, i: int)
    requires FirstWithId(tiles, x, i)
    ensures RemoveFirst(tiles, x) == tiles[..i] + tiles[i + 1..]
    decreases |tiles|
  {
    if i == 0 {
      assert tiles[..0] + tiles[1..] == tiles[1..];
    } else {
      var t := tiles[1..];
      assert FirstWithId(t, x, i - 1) by {
        assert forall j :: 0 <= j < i - 1 ==> t[j] == tiles[j + 1];
      }
      assert RemoveFirst(t, x) == t[..i - 1] + t[i..] by {
        RemoveFirstAt(t, x, i - 1);
      }
      assert RemoveFirst(tiles, x) == [tiles[0]] + RemoveFirst(t, x) by {
        assert tiles[0].id != x;
      }
      ConsSplit(tiles, i);
    }
  }

  lemma ConsSplit(tiles: seq<Tile>, i: int)
    requires 0 < i < |tiles|
    ensures [tiles[0]] + (tiles[1..][..i - 1] + tiles[1..][i..]) == tiles[..i] + tiles[i + 1..]
  {
    assert tiles[..i] == [tiles[0]] + tiles[1..][..i - 1];
    assert tiles[i + 1..] == tiles[1..][i..];
  }

  lemma SubsequenceSkip(tiles: seq<Tile>)
    requires tiles != []
    ensures IsSubsequence(tiles[1..], tiles)
  {
    SubsequenceRefl(tiles[1..]);
  }

  /** The saved name, link and icon laid over a tile; the id stays. */
  function Apply(t: Tile, d: Record): Tile {
    t.(name := d.name, link := d.link, img := d.img)
  }

  /** One iteration of `saved.forEach` in `load`: a record whose id matches no
      tile is skipped; otherwise the matching tile takes the record's fields
      and is moved to the end (`list.appendChild(el)`). */
  function Step(tiles: seq<Tile>, d: Record): (r: seq<Tile>)
    ensures Lookup(tiles, d.id).None? ==> r == tiles
    ensures Lookup(tiles, d.id).Some? ==>
      |r| == |tiles| && r[|r| - 1] == Apply(Lookup(tiles, d.id).value, d)
      && multiset(r[..|r| - 1]) + multiset{Lookup(tiles, d.id).value} == multiset(tiles)
      && IsSubsequence(r[..|r| - 1], tiles)
    ensures multiset(Ids(r)) == multiset(Ids(tiles))
  {
    match Lookup(tiles, d.id)
    case None => tiles
    case Some(t) =>
      var front := RemoveFirst(tiles, d.id);
      RemoveFirstFacts(tiles, d.id);
      IdsAppend(front, [Apply(t, d)]);
      assert (front + [Apply(t, d)])[..|front|] == front;
      front + [Apply(t, d)]
  }

  /** The tile a step moves is the first one carrying the record's id: the
      tiles before and after it keep their places, and it goes to the end
      with the record's fields. */
  lemma StepAt(tiles: seq<Tile>, d: Record, i: int)
    requires FirstWithId(tiles, d.id, i)
    ensures Step(tiles, d) == tiles[..i] + tiles[i + 1..] + [Apply(tiles[i], d)]
  {
    LookupAt(tiles, d.id, i);
    RemoveFirstAt(tiles, d.id, i);
    assert Step(tiles, d) == RemoveFirst(tiles, d.id) + [Apply(tiles[i], d)];
  }

  /** The `forEach` over the stored records, in stored order. */
  function Load(tiles: seq<Tile>, saved: seq<Record>): (r: seq<Tile>)
    ensures |r| == |tiles|
    ensures multiset(Ids(r)) == multiset(Ids(tiles))
    decreases |saved|
  {
    if saved == [] then tiles else Load(Step(tiles, saved[0]), saved[1..])
  }

  /** The records of a stored array, its `null` elements left out. */
  function Records(elems: seq<Option<Record>>): seq<Record>
    decreases |elems|
  {
    if elems == [] then []
    else (if elems[0].Some? then [elems[0].value] else []) + Records(elems[1..])
  }

  /** A stored array with no `null` element. */
  predicate NoNull(elems: seq<Option<Record>>) {
    forall i :: 0 <= i < |elems| ==> elems[i].Some?
  }

  /** `elems[k]` is the first `null` element. */
  predicate FirstNull(elems: seq<Option<Record>>, k: int) {
    0 <= k < |elems| && elems[k].None? && NoNull(elems[..k])
  }

  /** `saved.forEach` over a parsed array: the records are applied in order
      until a `null` element, whose `d.id` throws. */
  function LoadElements(tiles: seq<Tile>, elems: seq<Option<Record>>): (r: Result<seq<Tile>, LoadError>)
    ensures r.Success? ==> |r.value| == |tiles| && multiset(Ids(r.value)) == multiset(Ids(tiles))
    ensures r.Failure? ==> r.error.NullElement? && multiset(Ids(r.error.partial)) == multiset(Ids(tiles))
    decreases |elems|
  {
    if elems == [] then Success(tiles)
    else match elems[0]
      case None => Failure(NullElement(tiles))
      case Some(d) => LoadElements(Step(tiles, d), elems[1..])
  }

  lemma NoNullCons(elems: seq<Option<Record>>)
    requires elems != [] && elems[0].Some?
    ensures NoNull(elems) <==> NoNull(elems[1..])
  {
    assert forall i :: 0 <= i < |elems[1..]| ==> elems[1..][i] == elems[i + 1];
  }

  /** A stored array loads exactly when it holds no `null`, and then gives
      `Load` of its records. */
  lemma {:induction false} LoadElementsFacts(tiles: seq<Tile>, elems: seq<Option<Record>>)
    ensures LoadElements(tiles, elems).Success? <==> NoNull(elems)
    ensures NoNull(elems) ==> LoadElements(tiles, elems) == Success(Load(tiles, Records(elems)))
    decreases |elems|
  {
    if elems != [] {
      match elems[0]
      case None =>
      case Some(d) =>
        LoadElementsFacts(Step(tiles, d), elems[1..]);
        NoNullCons(elems);
    }
  }

  /** With a `null` element, the error carries the tiles with the records
      before the first `null` applied. */
  lemma {:induction false} LoadElementsThrows(tiles: seq<Tile>, elems: seq<Option<Record>>)
    requires !NoNull(elems)
    ensures exists k ::
      FirstNull(elems, k) && LoadElements(tiles, elems) == Failure(NullElement(Load(tiles, Records(elems[..k]))))
    decreases |elems|
  {
    match elems[0]
    case None =>
      assert FirstNull(elems, 0) && Records(elems[..0]) == [];
    case Some(d) =>
      var rest := elems[1..];
      NoNullCons(elems);
      LoadElementsThrows(Step(tiles, d), rest);
      var k :| FirstNull(rest, k)
        && LoadElements(Step(tiles, d), rest) == Failure(NullElement(Load(Step(tiles, d), Records(rest[..k]))));
      var pre := elems[..k + 1];
      assert pre[0] == Some(d) && pre[1..] == rest[..k];
      assert Records(pre) == [d] + Records(rest[..k]);
      assert Load(tiles, Records(pre)) == Load(Step(tiles, d), Records(rest[..k])) by {
        assert ([d] + Records(rest[..k]))[1..] == Records(rest[..k]);
      }
      assert FirstNull(elems, k + 1) by {
        NoNullCons(pre);
      }
  }

  /** `load` as a whole: only an array is applied; a missing key, a stored
      `null` or any other JSON value leaves the tiles as they are. Text that
      is not JSON, or a `null` element in the array, throws out of `load`. */
  function LoadStored(tiles: seq<Tile>, stored: Stored): (r: Result<seq<Tile>, LoadError>)
    ensures stored.Unparsable? ==> r == Failure(SyntaxError)
    ensures (stored.Missing? || stored.NotAnArray?) ==> r == Success(tiles)
    ensures stored.Entries? ==> (r.Success? <==> NoNull(stored.elems))
    ensures stored.Entries? && r.Success? ==> r.value == Load(tiles, Records(stored.elems))
    ensures stored.Entries? && r.Failure? ==> r.error.NullElement?
    ensures r.Success? ==> multiset(Ids(r.value)) == multiset(Ids(tiles))
  {
    match stored
    case Missing => Success(tiles)
    case Unparsable => Failure(SyntaxError)
    case NotAnArray => Success(tiles)
    case Entries(elems) =>
      LoadElementsFacts(tiles, elems);
      LoadElements(tiles, elems)
  }

  /** The array `save` writes, as `load` reads it back. */
  function Written(saved: seq<Record>): (r: Stored)
    ensures r.Entries? && |r.elems| == |saved|
    ensures forall i :: 0 <= i < |saved| ==> r.elems[i] == Some(saved[i])
  {
    Entries(seq(|saved|, i requires 0 <= i < |saved| => Some(saved[i])))
  }

  /** What `save` writes loads without error, as `Load` of the records. */
  lemma WrittenLoads(tiles: seq<Tile>, saved: seq<Record>)
    ensures LoadStored(tiles, Written(saved)) == Success(Load(tiles, saved))
  {
    RecordsWritten(saved);
  }

  lemma {:induction false} RecordsWritten(saved: seq<Record>)
    ensures Records(Written(saved).elems) == saved
    decreases |saved|
  {
    if saved != [] {
      var elems := Written(saved).elems;
      assert elems[1..] == Written(saved[1..]).elems;
      RecordsWritten(saved[1..]);
      assert saved == [saved[0]] + saved[1..];
    }
  }

  // ---------------------------------------------------------------------------
  // An independent description of what `load` produces when ids are unique

  predicate DistinctRecordIds(saved: seq<Record>) {
    forall i, j :: 0 <= i < j < |saved| ==> saved[i].id != saved[j].id
  }

  function SavedIds(saved: seq<Record>): set<string> {
    set d | d in saved :: d.id
  }

  /** The tiles no stored record mentions, in their original order. */
  function Unsaved(tiles: seq<Tile>, ids: set<string>): seq<Tile>
    decreases |tiles|
  {
    if tiles == [] then []
    else (if tiles[0].id in ids then [] else [tiles[0]]) + Unsaved(tiles[1..], ids)
  }

  /** For each stored record whose id names a tile, that tile with the
      record's fields, in stored order. */
  function Restored(tiles: seq<Tile>, saved: seq<Record>): seq<Tile>
    decreases |saved|
  {
    if saved == [] then [] else Moved(tiles, saved[0]) + Restored(tiles, saved[1..])
  }

  /** The tile a record moves to the end, with the record's fields, if any. */
  function Moved(tiles: seq<Tile>, d: Record): seq<Tile> {
    match Lookup(tiles, d.id)
    case None => []
    case Some(t) => [Apply(t, d)]
  }

  lemma {:induction false} UnsavedAppend(a: seq<Tile>, b: seq<Tile>, ids: set<string>)
    ensures Unsaved(a + b, ids) == Unsaved(a, ids) + Unsaved(b, ids)
    decreases |a|
  {
    if a == [] {
      assert a + b == b;
    } else {
      assert (a + b)[1..] == a[1..] + b;
      UnsavedAppend(a[1..], b, ids);
    }
  }

  /** Adding an id no tile carries changes nothing. */
  lemma {:induction false} UnsavedIgnoresAbsent(tiles: seq<Tile>, ids: set<string>, x: string)
    requires x !in Ids(tiles)
    ensures Unsaved(tiles, ids + {x}) == Unsaved(tiles, ids)
    decreases |tiles|
  {
    if tiles != [] {
      UnsavedIgnoresAbsent(tiles[1..], ids, x);
    }
  }

  /** With unique ids, taking out the tile with id `x` is the same as
      treating `x` as saved. */
  lemma {:induction false} UnsavedRemoveFirst(tiles: seq<Tile>, ids: set<string>, x: string)
    requires NoDup(Ids(tiles))
    ensures Unsaved(RemoveFirst(tiles, x), ids) == Unsaved(tiles, ids + {x})
    decreases |tiles|
  {
    if tiles != [] {
      NoDupCons(tiles[0].id, Ids(tiles[1..]));
      if tiles[0].id == x {
        UnsavedIgnoresAbsent(tiles[1..], ids, x);
      } else {
        UnsavedRemoveFirst(tiles[1..], ids, x);
        assert ([tiles[0]] + RemoveFirst(tiles[1..], x))[1..] == RemoveFirst(tiles[1..], x);
      }
    }
  }

  lemma {:induction false} LookupAppend(a: seq<Tile>, b: seq<Tile>, x: string)
    ensures Lookup(a + b, x) == if Lookup(a, x).Some? then Lookup(a, x) else Lookup(b, x)
    decreases |a|
  {
    if a == [] {
      assert a + b == b;
    } else {
      assert (a + b)[1..] == a[1..] + b;
      LookupAppend(a[1..], b, x);
    }
  }

  lemma {:induction false} LookupRemoveFirst(tiles: seq<Tile>, x: string, y: string)
    requires x != y
    ensures Lookup(RemoveFirst(tiles, y), x) == Lookup(tiles, x)
    decreases |tiles|
  {
    if tiles != [] && tiles[0].id != y {
      LookupRemoveFirst(tiles[1..], x, y);
      assert ([tiles[0]] + RemoveFirst(tiles[1..], y))[1..] == RemoveFirst(tiles[1..], y);
    }
  }

  /** A step for one id leaves the lookup of every other id alone. */
  lemma LookupAfterStep(tiles: seq<Tile>, d: Record, x: string)
    requires x != d.id
    ensures Lookup(Step(tiles, d), x) == Lookup(tiles, x)
  {
    match Lookup(tiles, d.id)
    case None =>
    case Some(t) =>
      LookupAppend(RemoveFirst(tiles, d.id), [Apply(t, d)], x);
      LookupRemoveFirst(tiles, x, d.id);
  }

  lemma {:induction false} RestoredAfterStep(tiles: seq<Tile>, d: Record, rest: seq<Record>)
    requires forall e :: e in rest ==> e.id != d.id
    ensures Restored(Step(tiles, d), rest) == Restored(tiles, rest)
    decreases |rest|
  {
    if rest != [] {
      LookupAfterStep(tiles, d, rest[0].id);
      RestoredAfterStep(tiles, d, rest[1..]);
    }
  }

  lemma StepKeepsDistinct(tiles: seq<Tile>, d: Record)
    requires NoDup(Ids(tiles))
    ensures NoDup(Ids(Step(tiles, d)))
  {
    match Lookup(tiles, d.id)
    case None =>
    case Some(t) =>
      var front := RemoveFirst(tiles, d.id);
      RemoveFirstKeepsDistinct(tiles, d.id);
      IdsAppend(front, [Apply(t, d)]);
      assert Ids([Apply(t, d)]) == [d.id];
      NoDupSnoc(Ids(front), d.id);
  }

  lemma {:induction false} RemoveFirstKeepsDistinct(tiles: seq<Tile>, x: string)
    requires NoDup(Ids(tiles))
    ensures NoDup(Ids(RemoveFirst(tiles, x))) && x !in Ids(RemoveFirst(tiles, x))
    decreases |tiles|
  {
    if tiles != [] {
      NoDupCons(tiles[0].id, Ids(tiles[1..]));
      if tiles[0].id != x {
        var rest := RemoveFirst(tiles[1..], x);
        RemoveFirstKeepsDistinct(tiles[1..], x);
        assert RemoveFirst(tiles, x) == [tiles[0]] + rest;
        assert Ids([tiles[0]] + rest) == [tiles[0].id] + Ids(rest);
        RemoveFirstIdsFrom(tiles[1..], x);
        NoDupCons(tiles[0].id, Ids(rest));
      }
    }
  }

  /** Taking a tile out introduces no new id. */
  lemma RemoveFirstIdsFrom(tiles: seq<Tile>, x: string)
    ensures forall y :: y in Ids(RemoveFirst(tiles, x)) ==> y in Ids(tiles)
  {
    var r := RemoveFirst(tiles, x);
    RemoveFirstFacts(tiles, x);
    SubsequenceMembers(r, tiles);
    forall y | y in Ids(r) ensures y in Ids(tiles) {
      IdsMembership(r, y);
      IdsMembership(tiles, y);
    }
  }

  /** With unique tile ids and unique stored ids, `load` puts the tiles no
      record mentions first, in their original order, followed by the
      matched tiles with their stored fields, in stored order; records whose
      id matches no tile contribute nothing. */
  lemma {:induction false} LoadMatchesReference(tiles: seq<Tile>, saved: seq<Record>)
    requires NoDup(Ids(tiles)) && DistinctRecordIds(saved)
    ensures Load(tiles, saved) == Unsaved(tiles, SavedIds(saved)) + Restored(tiles, saved)
    decreases |saved|
  {
    if saved == [] {
      assert SavedIds(saved) == {};
      UnsavedNone(tiles);
    } else {
      var d, rest := saved[0], saved[1..];
      var stepped := Step(tiles, d);
      var moved := Moved(tiles, d);
      DistinctRecordIdsTail(saved);
      StepKeepsDistinct(tiles, d);
      LoadMatchesReference(stepped, rest);
      RestoredAfterStep(tiles, d, rest);
      ReferenceStep(tiles, d, SavedIds(rest));
      var front := Unsaved(tiles, SavedIds(rest) + {d.id});
      assert Load(tiles, saved) == Load(stepped, rest);
      assert Load(stepped, rest) == Unsaved(stepped, SavedIds(rest)) + Restored(stepped, rest);
      assert Restored(stepped, rest) == Restored(tiles, rest);
      assert Unsaved(stepped, SavedIds(rest)) == front + moved;
      assert Load(tiles, saved) == (front + moved) + Restored(tiles, rest);
      assert Restored(tiles, saved) == moved + Restored(tiles, rest);
      assert Unsaved(tiles, SavedIds(saved)) == front;
      ConcatAssoc(front, moved, Restored(tiles, rest));
    }
  }

  lemma ConcatAssoc(a: seq<Tile>, b: seq<Tile>, c: seq<Tile>)
    ensures (a + b) + c == a + (b + c)
  {
  }

  /** The first stored record's id is not repeated in the rest, and the ids
      of the rest are still unique. */
  lemma DistinctRecordIdsTail(saved: seq<Record>)
    requires saved != [] && DistinctRecordIds(saved)
    ensures DistinctRecordIds(saved[1..])
    ensures saved[0].id !in SavedIds(saved[1..])
    ensures forall e :: e in saved[1..] ==> e.id != saved[0].id
    ensures SavedIds(saved) == SavedIds(saved[1..]) + {saved[0].id}
  {
    var rest := saved[1..];
    forall e | e in rest ensures e.id != saved[0].id {
      var k :| 0 <= k < |rest| && rest[k] == e;
      assert saved[k + 1] == e;
    }
    assert saved == [saved[0]] + rest;
  }

  /** The front part after one step: the stepped tile is at the end, and the
      front is what the reference keeps once `d.id` counts as saved. */
  lemma ReferenceStep(tiles: seq<Tile>, d: Record, ids: set<string>)
    requires NoDup(Ids(tiles)) && d.id !in ids
    ensures Unsaved(Step(tiles, d), ids) == Unsaved(tiles, ids + {d.id}) + Moved(tiles, d)
  {
    match Lookup(tiles, d.id)
    case None =>
      UnsavedIgnoresAbsent(tiles, ids, d.id);
    case Some(t) =>
      var front := RemoveFirst(tiles, d.id);
      UnsavedAppend(front, [Apply(t, d)], ids);
      UnsavedRemoveFirst(tiles, ids, d.id);
  }

  lemma {:induction false} UnsavedNone(tiles: seq<Tile>)
    ensures Unsaved(tiles, {}) == tiles
    decreases |tiles|
  {
    if tiles != [] {
      UnsavedNone(tiles[1..]);
    }
  }

  lemma {:induction false} UnsavedAllSaved(tiles: seq<Tile>, ids: set<string>)
    requires forall t :: t in tiles ==> t.id in ids
    ensures Unsaved(tiles, ids) == []
    decreases |tiles|
  {
    if tiles != [] {
      UnsavedAllSaved(tiles[1..], ids);
    }
  }

  lemma {:induction false} RestoredSave(defaults: seq<Tile>, current: seq<Tile>)
    requires forall t :: t in current ==> t.id in Ids(defaults) && IsTrimmed(t.name)
    ensures Restored(defaults, Save(current)) == current
    decreases |current|
  {
    if current != [] {
      var t := current[0];
      assert Save(current)[1..] == Save(current[1..]);
      var u := Lookup(defaults, t.id).value;
      assert Apply(u, ToRecord(t)) == t;
      RestoredSave(defaults, current[1..]);
    }
  }

  /** Reloading the page restores what was saved: the page's default tiles
      carry the same unique ids as the saved tiles, whose names are already
      trimmed, so `load` rebuilds exactly the saved order and fields. This
      is how a drag reorder or an edit survives a reload. */
  lemma ReloadRestores(defaults: seq<Tile>, current: seq<Tile>)
    requires NoDup(Ids(defaults)) && NoDup(Ids(current))
    requires forall x :: x in Ids(defaults) <==> x in Ids(current)
    requires forall t :: t in current ==> IsTrimmed(t.name)
    ensures Load(defaults, Save(current)) == current
  {
    var saved := Save(current);
    IdsIndex(current);
    assert DistinctRecordIds(saved) by {
      forall i, j | 0 <= i < j < |saved| ensures saved[i].id != saved[j].id {
        assert Ids(current)[i] != Ids(current)[j];
      }
    }
    LoadMatchesReference(defaults, saved);
    forall t | t in defaults ensures t.id in SavedIds(saved) {
      IdsMembership(defaults, t.id);
      IdsMembership(current, t.id);
      var c :| c in current && c.id == t.id;
      var k :| 0 <= k < |current| && current[k] == c;
      assert saved[k] in saved;
    }
    UnsavedAllSaved(defaults, SavedIds(saved));
    forall t | t in current ensures t.id in Ids(defaults) {
      IdsMembership(current, t.id);
    }
    RestoredSave(defaults, current);
  }

  /** `load(save(tiles))` on the same page reproduces the tiles. */
  lemma LoadSaveRoundTrip(tiles: seq<Tile>)
    requires NoDup(Ids(tiles))
    requires forall t :: t in tiles ==> IsTrimmed(t.name)
    ensures Load(tiles, Save(tiles)) == tiles
  {
    ReloadRestores(tiles, tiles);
  }
}

=== FILE: text.dfy ===
/** String primitives the page scripts rely on: `String.prototype.trim`,
    `toLowerCase` (over ASCII) and `String.prototype.includes`. */
module Text {

  /** The characters `trim` strips: the ECMAScript WhiteSpace set (TAB, VT, FF,
      ZWNBSP and every Unicode space separator) and the LineTerminator set
      (LF, CR, LS, PS). */
  predicate IsSpace(c: char) {
    || c == '\t' || c == '\n' || c == '\U{000B}' || c == '\U{000C}' || c == '\r'
    || c == ' ' || c == '\U{00A0}' || c == '\U{1680}'
    || ('\U{2000}' <= c <= '\U{200A}')
    || c == '\U{2028}' || c == '\U{2029}' || c == '\U{202F}' || c == '\U{205F}'
    || c == '\U{3000}' || c == '\U{FEFF}'
  }

  predicate AllSpace(s: string) {
    forall i :: 0 <= i < |s| ==> IsSpace(s[i])
  }

  /** A string `trim` leaves as it is. */
  predicate IsTrimmed(s: string) {
    s == [] || (!IsSpace(s[0]) && !IsSpace(s[|s| - 1]))
  }

  lemma SpaceThenAllSpace(s: string, n: nat)
    requires 1 <= n <= |s| && IsSpace(s[0]) && AllSpace(s[1..][..n - 1])
    ensures AllSpace(s[..n])
  {
    forall k | 0 <= k < n ensures IsSpace(s[..n][k]) {
      if k > 0 {
        assert s[..n][k] == s[1..][..n - 1][k - 1];
      }
    }
  }

  lemma AllSpaceThenSpace(s: string, n: nat)
    requires n < |s| && IsSpace(s[|s| - 1]) && AllSpace(s[..|s| - 1][n..])
    ensures AllSpace(s[n..])
  {
    forall k | 0 <= k < |s| - n ensures IsSpace(s[n..][k]) {
      if k < |s| - 1 - n {
        assert s[n..][k] == s[..|s| - 1][n..][k];
      }
    }
  }

  /** Drops leading whitespace. */
  function TrimStart(s: string): (r: string)
    ensures |r| <= |s|
  {
    if s != [] && IsSpace(s[0]) then TrimStart(s[1..]) else s
  }

  /** What `TrimStart` cuts is whitespace, and what it keeps is a suffix
      that does not start with whitespace. */
  lemma {:induction false} TrimStartFacts(s: string)
    ensures var r := TrimStart(s);
      && r == s[|s| - |r|..]
      && AllSpace(s[..|s| - |r|])
      && (r == [] || !IsSpace(r[0]))
    decreases |s|
  {
    if s != [] && IsSpace(s[0]) {
      var r := TrimStart(s[1..]);
      TrimStartFacts(s[1..]);
      assert s[1..][|s| - 1 - |r|..] == s[|s| - |r|..];
      SpaceThenAllSpace(s, |s| - |r|);
    }
  }

  /** Drops trailing whitespace. */
  function TrimEnd(s: string): (r: string)
    ensures |r| <= |s|
  {
    if s != [] && IsSpace(s[|s| - 1]) then TrimEnd(s[..|s| - 1]) else s
  }

  /** What `TrimEnd` cuts is whitespace, and what it keeps is a prefix
      that does not end with whitespace. */
  lemma {:induction false} TrimEndFacts(s: string)
    ensures var r := TrimEnd(s);
      && r == s[..|r|]
      && AllSpace(s[|r|..])
      && (r == [] || !IsSpace(r[|r| - 1]))
    decreases |s|
  {
    if s != [] && IsSpace(s[|s| - 1]) {
      var r := TrimEnd(s[..|s| - 1]);
      TrimEndFacts(s[..|s| - 1]);
      assert s[..|s| - 1][..|r|] == s[..|r|];
      AllSpaceThenSpace(s, |r|);
    }
  }

  /** `s.trim()`: the infix of `s` left once whitespace is cut from both
      ends; it neither starts nor ends with whitespace. */
  function Trim(s: string): (r: string)
    ensures IsTrimmed(r)
    ensures exists i :: TrimmedAt(s, r, i)
    ensures r == [] <==> AllSpace(s)
    ensures IsTrimmed(s) ==> r == s
  {
    var r := TrimEnd(TrimStart(s));
    TrimFacts(s);
    r
  }

  /** `r` sits at offset `i` of `s` with only whitespace around it. */
  predicate TrimmedAt(s: string, r: string, i: int) {
    0 <= i <= |s| - |r| && s[i..i + |r|] == r && AllSpace(s[..i]) && AllSpace(s[i + |r|..])
  }

  lemma TrimFacts(s: string)
    ensures IsTrimmed(TrimEnd(TrimStart(s)))
    ensures TrimmedAt(s, TrimEnd(TrimStart(s)), |s| - |TrimStart(s)|)
    ensures TrimEnd(TrimStart(s)) == [] <==> AllSpace(s)
    ensures IsTrimmed(s) ==> TrimEnd(TrimStart(s)) == s
  {
    var t := TrimStart(s);
    var r := TrimEnd(t);
    TrimStartFacts(s);
    TrimEndFacts(t);
    TrimEndKeepsStart(t, r);
    TrimmedAtInfix(s, t, r);
    BlankIffAllSpace(s, t, r);
    if IsTrimmed(s) {
      TrimOfTrimmed(s);
    }
  }

  lemma TrimEndKeepsStart(t: string, r: string)
    requires t == [] || !IsSpace(t[0])
    requires |r| <= |t| && r == t[..|r|] && (r == [] || !IsSpace(r[|r| - 1]))
    ensures IsTrimmed(r)
  {
    if r != [] {
      assert r[0] == t[0];
    }
  }

  lemma TrimOfTrimmed(s: string)
    requires IsTrimmed(s)
    ensures TrimStart(s) == s && TrimEnd(s) == s
  {
  }

  lemma BlankIffAllSpace(s: string, t: string, r: string)
    requires |t| <= |s| && t == s[|s| - |t|..] && AllSpace(s[..|s| - |t|]) && (t == [] || !IsSpace(t[0]))
    requires |r| <= |t| && r == t[..|r|] && AllSpace(t[|r|..])
    ensures r == [] <==> AllSpace(s)
  {
    var i := |s| - |t|;
    if t != [] {
      assert t[0] == s[i];
    }
    if r == [] {
      assert t[|r|..] == t;
      assert s[i..] == t;
      AllSpaceJoin(s, i);
    }
  }

  lemma TrimmedAtInfix(s: string, t: string, r: string)
    requires |t| <= |s| && t == s[|s| - |t|..] && AllSpace(s[..|s| - |t|])
    requires |r| <= |t| && r == t[..|r|] && AllSpace(t[|r|..])
    ensures TrimmedAt(s, r, |s| - |t|)
  {
    var i := |s| - |t|;
    assert s[i..i + |r|] == t[..|r|];
    assert s[i + |r|..] == t[|r|..];
  }

  lemma AllSpaceJoin(s: string, i: nat)
    requires i <= |s| && AllSpace(s[..i]) && AllSpace(s[i..])
    ensures AllSpace(s)
  {
    forall k | 0 <= k < |s| ensures IsSpace(s[k]) {
      if k < i {
        assert s[k] == s[..i][k];
      } else {
        assert s[k] == s[i..][k - i];
      }
    }
  }

  /** Trimming twice is trimming once. */
  lemma TrimIdempotent(s: string)
    ensures Trim(Trim(s)) == Trim(s)
  {
  }

  /** ASCII `toLowerCase` of one character. */
  function LowerChar(c: char): char {
    if 'A' <= c <= 'Z' then (c as int + 32) as char else c
  }

  /** `s.toLowerCase()` restricted to ASCII letters. */
  function Lower(s: string): (r: string)
    ensures |r| == |s|
    ensures forall i :: 0 <= i < |s| ==> !('A' <= r[i] <= 'Z')
    ensures forall i :: 0 <= i < |s| && !('A' <= s[i] <= 'Z') ==> r[i] == s[i]
    ensures forall i :: 0 <= i < |s| && 'A' <= s[i] <= 'Z' ==> 'a' <= r[i] <= 'z' && r[i] as int == s[i] as int + 32
  {
    seq(|s|, i requires 0 <= i < |s| => LowerChar(s[i]))
  }

  /** Lower-casing twice is lower-casing once. */
  lemma LowerIdempotent(s: string)
    ensures Lower(Lower(s)) == Lower(s)
  {
  }

  predicate StartsWith(s: string, p: string) {
    |p| <= |s| && s[..|p|] == p
  }

  /** `t` occurs in `s` starting at offset `i`. */
  predicate OccursAt(s: string, t: string, i: int) {
    0 <= i <= |s| - |t| && s[i..i + |t|] == t
  }

  /** `s.includes(t)`, scanning the start positions of `s` left to right. */
  predicate Contains(s: string, t: string)
    decreases |s|
  {
    StartsWith(s, t) || (s != [] && Contains(s[1..], t))
  }

  /** The scan agrees with the textbook definition: `t` occurs at some offset of `s`. */
  lemma {:induction false} ContainsIffOccurs(s: string, t: string)
    ensures Contains(s, t) <==> exists i :: OccursAt(s, t, i)
    decreases |s|
  {
    if StartsWith(s, t) {
      assert OccursAt(s, t, 0);
    } else if s == [] {
    } else {
      ContainsIffOccurs(s[1..], t);
      if Contains(s[1..], t) {
        var i :| OccursAt(s[1..], t, i);
        assert s[1..][i..i + |t|] == s[i + 1..i + 1 + |t|];
        assert OccursAt(s, t, i + 1);
      }
      assert !OccursAt(s, t, 0);
      forall i | OccursAt(s, t, i) && i > 0 ensures Contains(s[1..], t) {
        assert s[1..][i - 1..i - 1 + |t|] == s[i..i + |t|];
        assert OccursAt(s[1..], t, i - 1);
      }
    }
  }

  /** Every string contains the empty string: an empty query matches everything. */
  lemma ContainsEmpty(s: string)
    ensures Contains(s, [])
  {
    assert s[..0] == [];
  }
}

=== FILE: tilemanager.dfy ===
/** The shortcut list as an interactive component (`initShortcuts`,
    script.js): the edit-mode flag, the drag session and the editor modal,
    over the ordered tiles. DOM geometry is replaced by one integer vertical
    midpoint per tile, supplied with each drag-over event. */
module TileManager {
  import opened Wrappers
  import opened Text
  import opened Seqs
  import opened Url
  import opened Shortcuts

  /** The editor's inputs: name, link and image-URL fields, and the source
      of the preview image. */
  datatype Draft = Draft(name: string, link: string, imgUrl: string, preview: string)

  /** The component: tiles in display order, `editMode`, `draggedItem` and
      `currentEditElement` (each a position in `tiles`), and the editor's
      inputs. */
  datatype State = State(
    tiles: seq<Tile>,
    editMode: bool,
    dragged: Option<nat>,
    editing: Option<nat>,
    draft: Draft)

  /** A state after an event, with the records written to storage when the
      event calls `save`. */
  datatype Committed = Committed(state: State, written: Option<seq<Record>>)

  /** The label `save` in the editor substitutes for a blank name. */
  const DefaultName: string := "Shortcut"

  /** The drag and edit references point at tiles. */
  predicate Valid(s: State) {
    && (s.dragged.Some? ==> s.dragged.value < |s.tiles|)
    && (s.editing.Some? ==> s.editing.value < |s.tiles|)
  }

  /** The page after `load`: edit mode off, no drag, editor closed. */
  function Init(defaults: seq<Tile>, stored: Stored): (r: Result<State, LoadError>)
    ensures r.Success? <==> !stored.Unparsable? && (stored.Entries? ==> NoNull(stored.elems))
    ensures r.Failure? ==> r == Failure(LoadStored(defaults, stored).error)
    ensures r.Success? ==>
      Valid(r.value) && !r.value.editMode && r.value.dragged.None? && r.value.editing.None?
      && multiset(Ids(r.value.tiles)) == multiset(Ids(defaults))
    ensures r.Success? ==> r.value.tiles == LoadStored(defaults, stored).value
  {
    match LoadStored(defaults, stored)
    case Failure(e) => Failure(e)
    case Success(tiles) => Success(State(tiles, false, None, None, Draft("", "", "", "")))
  }

  /** The edit button: flips the mode and nothing else. */
  function ToggleEditMode(s: State): (r: State)
    requires Valid(s)
    ensures Valid(r) && r.editMode == !s.editMode
    ensures r.tiles == s.tiles && r.dragged == s.dragged && r.editing == s.editing && r.draft == s.draft
  {
    s.(editMode := !s.editMode)
  }

  // ---------------------------------------------------------------------------
  // Drag and drop

  /** The tile the dragged one is placed before: among the candidates whose
      midpoint lies below the cursor (`offset < 0`), the one with the
      smallest distance; on a tie the earliest, because the comparison is
      strict. */
  ghost predicate IsAfterTile(mids: seq<int>, y: int, j: int) {
    && 0 <= j < |mids| && mids[j] > y
    && (forall i :: 0 <= i < |mids| && mids[i] > y ==> mids[j] <= mids[i])
    && (forall i :: 0 <= i < j && mids[i] > y ==> mids[j] < mids[i])
  }

  /** `getDragAfterElement(y)`: the `reduce` over the candidates in document
      order, written as a fold over the prefix; `None` means no candidate. */
  function DragAfter(mids: seq<int>, y: int): (r: Option<nat>)
    ensures r.None? <==> forall i :: 0 <= i < |mids| ==> mids[i] <= y
    ensures r.Some? ==> IsAfterTile(mids, y, r.value)
    decreases |mids|
  {
    if mids == [] then None
    else
      var last := |mids| - 1;
      var closest := DragAfter(mids[..last], y);
      assert forall i :: 0 <= i < last ==> mids[..last][i] == mids[i];
      var offset := y - mids[last];
      if offset < 0 && (closest.None? || offset > y - mids[closest.value]) then Some(last)
      else closest
  }

  /** `dragstart`: records the tile under the cursor (`None` when the event
      did not start on a tile); ignored while edit mode is off. */
  function DragStart(s: State, target: Option<nat>): (r: State)
    requires Valid(s) && (target.Some? ==> target.value < |s.tiles|)
    ensures Valid(r)
    ensures !s.editMode ==> r == s
    ensures s.editMode ==> r.dragged == target && r.tiles == s.tiles && r.editing == s.editing
    ensures r.editMode == s.editMode && r.draft == s.draft
  {
    if !s.editMode then s else s.(dragged := target)
  }

  lemma TrackEditing(tiles: seq<Tile>, k: nat, p: nat, editing: Option<nat>)
    requires k < |tiles| && p < |tiles| && (editing.Some? ==> editing.value < |tiles|)
    ensures editing.Some? ==>
      && Track(editing.value, k, p) < |tiles|
      && InsertAt(RemoveAt(tiles, k), p, tiles[k])[Track(editing.value, k, p)] == tiles[editing.value]
  {
    if editing.Some? {
      TrackFollows(tiles, k, p, editing.value);
    }
  }

  /** `dragover`: while edit mode is on and a tile is being dragged, the
      dragged tile itself is moved, before the chosen tile or to the end; the
      other tiles keep their order and the tile open in the editor is still
      the one referenced. Otherwise nothing happens. */
  function DragOver(s: State, mids: seq<int>, y: int): (r: State)
    requires Valid(s) && |mids| == |s.tiles|
    ensures Valid(r) && r.editMode == s.editMode && r.draft == s.draft
    ensures s.editing.None? ==> r.editing.None?
    ensures !s.editMode || s.dragged.None? ==> r == s
    ensures s.editMode && s.dragged.Some? ==>
      var k := s.dragged.value;
      && r.dragged.Some? && |r.tiles| == |s.tiles|
      && r.tiles[r.dragged.value] == s.tiles[k]
      && RemoveAt(r.tiles, r.dragged.value) == RemoveAt(s.tiles, k)
      && multiset(r.tiles) == multiset(s.tiles)
      && (r.dragged.value == |s.tiles| - 1 <==> forall i :: 0 <= i < |s.tiles| - 1 ==> RemoveAt(mids, k)[i] <= y)
      && (r.dragged.value < |s.tiles| - 1 ==> IsAfterTile(RemoveAt(mids, k), y, r.dragged.value))
      && (s.editing.Some? ==> r.editing.Some? && r.tiles[r.editing.value] == s.tiles[s.editing.value])
      && (s.editing.Some? ==> Follows(s.editing.value, k, r.dragged.value, r.editing.value))
  {
    if !s.editMode || s.dragged.None? then s
    else
      var k := s.dragged.value;
      var others := RemoveAt(s.tiles, k);
      var p := match DragAfter(RemoveAt(mids, k), y) case Some(j) => j case None => |others|;
      var tiles := InsertAt(others, p, s.tiles[k]);
      RemoveInsert(others, p, s.tiles[k]);
      MoveKeepsMultiset(s.tiles, k, p);
      var editing := if s.editing.None? then None else Some(Track(s.editing.value, k, p));
      TrackEditing(s.tiles, k, p, s.editing);
      TrackInverse(if s.editing.Some? then s.editing.value else k, k, p);
      s.(tiles := tiles, dragged := Some(p), editing := editing)
  }

  /** `dragend`: ends the drag session and saves the current order, also
      for a stray event with no drag in progress. */
  function DragEnd(s: State): (r: Committed)
    requires Valid(s)
    ensures Valid(r.state) && r.state.dragged.None?
    ensures r.state.tiles == s.tiles && r.state.editing == s.editing && r.state.editMode == s.editMode
    ensures r.state.draft == s.draft
    ensures r.written == Some(Save(s.tiles))
  {
    Committed(s.(dragged := None), Some(Save(s.tiles)))
  }

  // ---------------------------------------------------------------------------
  // The editor

  /** A click on a tile in edit mode opens the editor on it, filling the
      inputs from the tile; outside edit mode, or off any tile, nothing
      changes. */
  function OpenEditor(s: State, target: Option<nat>): (r: State)
    requires Valid(s) && (target.Some? ==> target.value < |s.tiles|)
    ensures Valid(r) && r.tiles == s.tiles && r.dragged == s.dragged && r.editMode == s.editMode
    ensures !s.editMode || target.None? ==> r == s
    ensures s.editMode && target.Some? ==>
      var t := s.tiles[target.value];
      && r.editing == target
      && r.draft == Draft(t.name, t.link, s.draft.imgUrl, t.img)
  {
    if !s.editMode || target.None? then s
    else
      var t := s.tiles[target.value];
      s.(editing := target, draft := s.draft.(name := t.name, link := t.link, preview := t.img))
  }

  /** The image-URL field is committed: a non-blank value, trimmed, becomes
      the preview; a blank one leaves it. */
  function ImageUrlChanged(s: State): (r: State)
    requires Valid(s)
    ensures Valid(r) && r.tiles == s.tiles && r.editing == s.editing
    ensures r.editMode == s.editMode && r.dragged == s.dragged
    ensures r.draft.(preview := s.draft.preview) == s.draft
    ensures AllSpace(s.draft.imgUrl) ==> r == s
    ensures !AllSpace(s.draft.imgUrl) ==>
      r.draft.preview == Trim(s.draft.imgUrl) && IsTrimmed(r.draft.preview) && r.draft.preview != []
  {
    var url := Trim(s.draft.imgUrl);
    if url != [] then s.(draft := s.draft.(preview := url)) else s
  }

  /** `closeEditor` (cancel, a click on the backdrop, Escape, or after a
      save): forgets the target and clears the image-URL field; no tile
      changes. */
  function CloseEditor(s: State): (r: State)
    requires Valid(s)
    ensures Valid(r) && r.tiles == s.tiles && r.editing.None? && r.draft.imgUrl == []
    ensures r.draft.name == s.draft.name && r.draft.link == s.draft.link && r.draft.preview == s.draft.preview
    ensures r.editMode == s.editMode && r.dragged == s.dragged
  {
    s.(editing := None, draft := s.draft.(imgUrl := []))
  }

  /** The tile the editor's save makes of `t` from the inputs: the name is
      the trimmed input, or "Shortcut" when that is blank; the link is the
      normalised input, so an empty link field is stored as the empty string
      and a whitespace-only one as `https://`; the icon is the preview. The
      id stays. */
  function EditedTile(t: Tile, d: Draft): (r: Tile)
    ensures r.id == t.id && r.img == d.preview
    ensures r.name != [] && IsTrimmed(r.name)
    ensures !AllSpace(d.name) ==> r.name == Trim(d.name)
    ensures AllSpace(d.name) ==> r.name == DefaultName
    ensures r.link == NormalizeUrl(d.link)
    ensures d.link == [] <==> r.link == []
    ensures d.link != [] ==> HasScheme(r.link)
  {
    var trimmed := Trim(d.name);
    var name := if trimmed != [] then trimmed else DefaultName;
    assert IsTrimmed(DefaultName) by {
      assert DefaultName[0] == 'S' && DefaultName[|DefaultName| - 1] == 't';
    }
    t.(name := name, link := NormalizeUrl(d.link), img := d.preview)
  }

  /** The editor's save button: with no target nothing happens; otherwise the
      target tile alone is replaced by its edited form, the tiles are saved
      and the editor is closed. */
  function SaveEdit(s: State): (r: Committed)
    requires Valid(s)
    ensures Valid(r.state) && |r.state.tiles| == |s.tiles| && r.state.dragged == s.dragged
    ensures s.editing.None? ==> r == Committed(s, None)
    ensures s.editing.Some? ==>
      && r.state.tiles[s.editing.value] == EditedTile(s.tiles[s.editing.value], s.draft)
      && (forall i :: 0 <= i < |s.tiles| && i != s.editing.value ==> r.state.tiles[i] == s.tiles[i])
      && r.state.editing.None? && r.state.draft == s.draft.(imgUrl := [])
      && r.state.editMode == s.editMode
      && r.written == Some(Save(r.state.tiles))
  {
    match s.editing
    case None => Committed(s, None)
    case Some(e) =>
      var closed := CloseEditor(s.(tiles := s.tiles[e := EditedTile(s.tiles[e], s.draft)]));
      Committed(closed, Some(Save(closed.tiles)))
  }

  // ---------------------------------------------------------------------------
  // Scenarios

  /** An edit survives a reload: when the tiles carry unique ids and trimmed
      names, loading the records written by the editor's save into the page's
      default tiles gives back the edited tiles. */
  lemma EditSurvivesReload(defaults: seq<Tile>, s: State)
    requires Valid(s) && s.editing.Some?
    requires NoDup(Ids(defaults)) && NoDup(Ids(s.tiles))
    requires forall x :: x in Ids(defaults) <==> x in Ids(s.tiles)
    requires forall t :: t in s.tiles ==> IsTrimmed(t.name)
    ensures Load(defaults, SaveEdit(s).written.value) == SaveEdit(s).state.tiles
  {
    var r := SaveEdit(s).state;
    var e := s.editing.value;
    var u := EditedTile(s.tiles[e], s.draft);
    assert r.tiles == s.tiles[e := u];
    IdsUpdate(s.tiles, e, u);
    UpdateKeepsTrimmed(s.tiles, e, u);
    ReloadRestores(defaults, r.tiles);
  }

  lemma UpdateKeepsTrimmed(tiles: seq<Tile>, e: nat, u: Tile)
    requires e < |tiles| && IsTrimmed(u.name)
    requires forall t :: t in tiles ==> IsTrimmed(t.name)
    ensures forall t :: t in tiles[e := u] ==> IsTrimmed(t.name)
  {
    forall t | t in tiles[e := u] ensures IsTrimmed(t.name) {
      var i :| 0 <= i < |tiles| && tiles[e := u][i] == t;
      if i != e {
        assert tiles[i] in tiles;
      }
    }
  }

  /** Replacing a tile by one with the same id keeps the ids. */
  lemma {:induction false} IdsUpdate(tiles: seq<Tile>, e: nat, u: Tile)
    requires e < |tiles| && u.id == tiles[e].id
    ensures Ids(tiles[e := u]) == Ids(tiles)
    decreases |tiles|
  {
    if e > 0 {
      assert tiles[e := u][1..] == tiles[1..][e - 1 := u];
      IdsUpdate(tiles[1..], e - 1, u);
    } else {
      assert tiles[e := u][1..] == tiles[1..];
    }
  }

  /** A drag reorder survives a reload: the records `dragend` writes rebuild
      the dragged order from the page's default tiles. */
  lemma DragSurvivesReload(defaults: seq<Tile>, s: State, mids: seq<int>, y: int)
    requires Valid(s) && |mids| == |s.tiles|
    requires NoDup(Ids(defaults)) && NoDup(Ids(s.tiles))
    requires forall x :: x in Ids(defaults) <==> x in Ids(s.tiles)
    requires forall t :: t in s.tiles ==> IsTrimmed(t.name)
    ensures var r := DragEnd(DragOver(s, mids, y));
      Load(defaults, r.written.value) == r.state.tiles
  {
    var moved := DragOver(s, mids, y);
    if s.editMode && s.dragged.Some? {
      var k := s.dragged.value;
      var p := moved.dragged.value;
      assert moved.tiles == InsertAt(RemoveAt(s.tiles, k), p, s.tiles[k]);
      MoveKeepsIds(s.tiles, k, p);
      forall t | t in moved.tiles ensures IsTrimmed(t.name) {
        assert t in multiset(moved.tiles);
      }
    }
    ReloadRestores(defaults, moved.tiles);
  }

  /** Moving one tile neither adds nor loses an id, and unique ids stay
      unique. */
  lemma MoveKeepsIds(tiles: seq<Tile>, k: nat, p: nat)
    requires k < |tiles| && p < |tiles|
    ensures var r := InsertAt(RemoveAt(tiles, k), p, tiles[k]);
      && (forall x :: x in Ids(r) <==> x in Ids(tiles))
      && (NoDup(Ids(tiles)) ==> NoDup(Ids(r)))
  {
    var r := InsertAt(RemoveAt(tiles, k), p, tiles[k]);
    var ids := Ids(tiles);
    IdsMove(tiles, k, p);
    MoveKeepsMembers(ids, k, p);
  }

  lemma IdsMove(tiles: seq<Tile>, k: nat, p: nat)
    requires k < |tiles| && p < |tiles|
    ensures |Ids(tiles)| == |tiles|
    ensures Ids(InsertAt(RemoveAt(tiles, k), p, tiles[k])) == InsertAt(RemoveAt(Ids(tiles), k), p, Ids(tiles)[k])
  {
    var r := InsertAt(RemoveAt(tiles, k), p, tiles[k]);
    var ids := Ids(tiles);
    IdsIndex(tiles);
    IdsIndex(r);
    var m := InsertAt(RemoveAt(ids, k), p, ids[k]);
    forall i | 0 <= i < |r| ensures Ids(r)[i] == m[i] {
      if i < p {
        if i < k {
          assert r[i] == tiles[i] && m[i] == ids[i];
        } else {
          assert r[i] == tiles[i + 1] && m[i] == ids[i + 1];
        }
      } else if i > p {
        if i - 1 < k {
          assert r[i] == tiles[i - 1] && m[i] == ids[i - 1];
        } else {
          assert r[i] == tiles[i] && m[i] == ids[i];
        }
      }
    }
  }
}

=== FILE: todo.dfy ===
/** The to-do list of `initTodoList` (script.js). The list is the array
    `todos` of item texts; rendering only mirrors it, so the model is the
    array and the two operations that change it. */
module Todo {
  import opened Text
  import opened Seqs

  /** Every item is non-blank text without surrounding whitespace: what
      `addItem` puts into the list. */
  predicate Clean(todos: seq<string>) {
    forall x :: x in todos ==> x != [] && IsTrimmed(x)
  }

  /** `addItem`: the input is trimmed; a blank input changes nothing,
      anything else is appended as the last item. */
  function AddItem(todos: seq<string>, input: string): (r: seq<string>)
    ensures AllSpace(input) ==> r == todos
    ensures !AllSpace(input) ==>
      && |r| == |todos| + 1 && r[..|todos|] == todos
      && r[|todos|] != [] && IsTrimmed(r[|todos|])
      && exists i :: TrimmedAt(input, r[|todos|], i)
  {
    var text := Trim(input);
    if text == [] then todos
    else
      assert (todos + [text])[..|todos|] == todos;
      todos + [text]
  }

  /** `todos.indexOf(text)`: the first position holding `text`, or -1. */
  function IndexOf(todos: seq<string>, text: string): (r: int)
    ensures -1 <= r < |todos|
    ensures r == -1 <==> text !in todos
    ensures r >= 0 ==> todos[r] == text && text !in todos[..r]
    decreases |todos|
  {
    if todos == [] then -1
    else if todos[0] == text then 0
    else
      var i := IndexOf(todos[1..], text);
      if i == -1 then -1
      else
        assert todos[..i + 1] == [todos[0]] + todos[1..][..i];
        i + 1
  }

  /** The position `splice(start, 1)` works at: a negative start counts
      back from the end and is clamped at 0, a start past the end is
      clamped to the length. */
  function SpliceStart(len: nat, start: int): (k: nat)
    ensures k <= len
    ensures 0 <= start <= len ==> k == start
    ensures start < 0 && len + start >= 0 ==> k == len + start
    ensures len + start < 0 ==> k == 0
  {
    if start < 0 then (if len + start < 0 then 0 else len + start)
    else if start > len then len
    else start
  }

  /** `s.splice(start, 1)`: removes the element at the clamped start, if
      there is one. */
  function Splice1<T>(s: seq<T>, start: int): (r: seq<T>)
    ensures 0 <= start < |s| ==> r == RemoveAt(s, start)
    ensures start == -1 && s != [] ==> r == s[..|s| - 1]
    ensures start >= |s| ==> r == s
    ensures s == [] ==> r == []
  {
    var k := SpliceStart(|s|, start);
    if k < |s| then s[..k] + s[k + 1..] else s
  }

  /** The `animationend` handler of a delete button, as written:
      `todos.splice(todos.indexOf(text), 1)`. */
  function DeleteAsWritten(todos: seq<string>, text: string): (r: seq<string>)
    ensures text !in todos && todos != [] ==> r == todos[..|todos| - 1]
    ensures text in todos ==> r == RemoveAt(todos, IndexOf(todos, text))
  {
    Splice1(todos, IndexOf(todos, text))
  }

  /** The delete the handler means: the first item equal to `text` goes,
      and when there is none the list stays as it is. */
  function Delete(todos: seq<string>, text: string): (r: seq<string>)
    ensures multiset(r) == multiset(todos) - multiset{text}
    ensures text !in todos ==> r == todos
    ensures text in todos ==> |r| == |todos| - 1
    ensures text in todos ==>
      exists i :: 0 <= i < |todos| && todos[i] == text && text !in todos[..i] && r == todos[..i] + todos[i + 1..]
  {
    var i := IndexOf(todos, text);
    if i == -1 then
      assert multiset(todos)[text] == 0;
      todos
    else
      assert todos == todos[..i] + [todos[i]] + todos[i + 1..];
      todos[..i] + todos[i + 1..]
  }

  /** While the item is still in the list the handler deletes exactly what
      it means to. */
  lemma DeleteAgreesWhenPresent(todos: seq<string>, text: string)
    requires text in todos
    ensures DeleteAsWritten(todos, text) == Delete(todos, text)
  {
  }

  /** Once the item is gone the handler as written still deletes: the
      last item, which nobody asked to remove. */
  lemma DeleteAbsentDropsLast(todos: seq<string>, text: string)
    requires text !in todos && todos != []
    ensures DeleteAsWritten(todos, text) == todos[..|todos| - 1]
    ensures |DeleteAsWritten(todos, text)| == |todos| - 1
  {
  }

  /** The delete button as the handler needs it: however many clicks land
      before `animationend`, the item is deleted once (`clicks` counts the
      clicks; none leaves the list alone). */
  function DeleteOnClicks(todos: seq<string>, text: string, clicks: nat): (r: seq<string>)
    ensures clicks == 0 || text !in todos ==> r == todos
    ensures clicks > 0 ==> multiset(r) == multiset(todos) - multiset{text}
    ensures clicks > 0 && text in todos ==> |r| == |todos| - 1
  {
    if clicks == 0 then todos else Delete(todos, text)
  }

  /** The handler as written: each click before `animationend` adds one
      more `once` listener, and every listener runs the delete. */
  function DeleteAsWrittenOnClicks(todos: seq<string>, text: string, clicks: nat): (r: seq<string>)
    ensures |r| >= |todos| - clicks
    ensures clicks == 0 ==> r == todos
    decreases clicks
  {
    if clicks == 0 then todos
    else DeleteAsWrittenOnClicks(DeleteAsWritten(todos, text), text, clicks - 1)
  }

  /** Two clicks on the delete button of `x` in the list `[x, y]`: as
      written both listeners run and `y` is lost as well; with one delete
      per button, `y` stays. */
  lemma DoubleFireLosesOther(x: string, y: string)
    requires x != y
    ensures DeleteAsWrittenOnClicks([x, y], x, 2) == []
    ensures DeleteOnClicks([x, y], x, 2) == [y]
  {
    assert IndexOf([x, y], x) == 0 && IndexOf([y], x) == -1;
    assert DeleteAsWritten([x, y], x) == [y];
    assert DeleteAsWritten([y], x) == [];
    assert DeleteAsWrittenOnClicks([x, y], x, 2) == DeleteAsWrittenOnClicks([y], x, 1);
    assert Delete([x, y], x) == [y];
  }

  /** The same with a repeated item: as written, two clicks on one of two
      equal items empty the list; with one delete per button the other copy
      stays. */
  lemma DoubleFireLosesCopy(x: string)
    ensures DeleteAsWrittenOnClicks([x, x], x, 2) == []
    ensures DeleteOnClicks([x, x], x, 2) == [x]
  {
    assert IndexOf([x, x], x) == 0 && IndexOf([x], x) == 0;
    assert DeleteAsWritten([x, x], x) == [x];
    assert DeleteAsWritten([x], x) == [];
    assert DeleteAsWrittenOnClicks([x, x], x, 2) == DeleteAsWrittenOnClicks([x], x, 1);
    assert Delete([x, x], x) == [x];
  }

  /** However often a delete button is clicked, the intended handler takes
      out one copy of its item and nothing else, for every list. */
  lemma ClicksDeleteOnce(todos: seq<string>, text: string, clicks: nat)
    requires clicks > 0
    ensures DeleteOnClicks(todos, text, clicks) == Delete(todos, text)
    ensures text in todos ==> DeleteOnClicks(todos, text, clicks) == DeleteAsWritten(todos, text)
    ensures |DeleteOnClicks(todos, text, clicks)| >= |todos| - 1
    ensures forall x :: x != text ==> multiset(DeleteOnClicks(todos, text, clicks))[x] == multiset(todos)[x]
  {
  }

  /** The intended delete is idempotent for an item that occurs once, so a
      repeated firing is harmless. */
  lemma DeleteTwice(todos: seq<string>, text: string)
    requires multiset(todos)[text] <= 1
    ensures Delete(Delete(todos, text), text) == Delete(todos, text)
  {

  }

  /** Adding keeps the list clean: the new item is trimmed and non-blank. */
  lemma AddKeepsClean(todos: seq<string>, input: string)
    requires Clean(todos)
    ensures Clean(AddItem(todos, input))
  {

  }

  /** Deleting keeps the list clean: it only removes items. */
  lemma DeleteKeepsClean(todos: seq<string>, text: string)
    requires Clean(todos)
    ensures Clean(Delete(todos, text))
  {
    var d := Delete(todos, text);
    forall x | x in d ensures x in todos {
      assert multiset(d)[x] > 0;
      assert multiset(d)[x] <= multiset(todos)[x];
    }
  }

  /** The handler as written keeps the list clean as well: it only removes
      items, even when it removes the wrong one. */
  lemma DeleteAsWrittenKeepsClean(todos: seq<string>, text: string)
    requires Clean(todos)
    ensures Clean(DeleteAsWritten(todos, text))
  {
    if text in todos {
      DeleteAgreesWhenPresent(todos, text);
      DeleteKeepsClean(todos, text);
    } else if todos != [] {
      var w := DeleteAsWritten(todos, text);
      forall x | x in w ensures x in todos {
        var k :| 0 <= k < |w| && w[k] == x;
        assert todos[k] == x;
      }
    }
  }
}

=== FILE: url.dfy ===
/** Link normalisation for shortcut tiles (`normalizeUrl` in script.js): every
    link the editor stores is either empty or an absolute URL with a scheme. */
module Url {
  import opened Text

  predicate IsLowerAlpha(c: char) {
    'a' <= c <= 'z'
  }

  /** Characters allowed after the first one in a scheme: `[a-z0-9+.-]`. */
  predicate IsSchemeChar(c: char) {
    IsLowerAlpha(c) || ('0' <= c <= '9') || c == '+' || c == '.' || c == '-'
  }

  /** `s` starts with zero or more scheme characters followed by `:`. */
  predicate ColonAfterSchemeChars(s: string)
    decreases |s|
  {
    |s| > 0 && (s[0] == ':' || (IsSchemeChar(s[0]) && ColonAfterSchemeChars(s[1..])))
  }

  /** The test `/^[a-z][a-z0-9+.-]*:/` (lower case only, case-sensitive). */
  predicate HasScheme(s: string) {
    |s| > 0 && IsLowerAlpha(s[0]) && ColonAfterSchemeChars(s[1..])
  }

  /** The regular expression read literally: a colon at some position `k`
      preceded by a lower-case letter and then only scheme characters. */
  ghost predicate SchemeColonAt(s: string, k: int) {
    1 <= k < |s| && IsLowerAlpha(s[0]) && s[k] == ':'
    && forall j :: 1 <= j < k ==> IsSchemeChar(s[j])
  }

  ghost predicate MatchesSchemeRegex(s: string) {
    exists k :: SchemeColonAt(s, k)
  }

  lemma {:induction false} ColonAfterSchemeCharsIff(s: string)
    ensures ColonAfterSchemeChars(s) <==>
      exists k :: 0 <= k < |s| && s[k] == ':' && forall j :: 0 <= j < k ==> IsSchemeChar(s[j])
    decreases |s|
  {
    if |s| == 0 {
    } else if s[0] == ':' {
      assert 0 <= 0 < |s| && s[0] == ':';
    } else {
      ColonAfterSchemeCharsIff(s[1..]);
      if ColonAfterSchemeChars(s) {
        var k :| 0 <= k < |s[1..]| && s[1..][k] == ':' && forall j :: 0 <= j < k ==> IsSchemeChar(s[1..][j]);
        assert s[k + 1] == ':';
        assert forall j :: 0 <= j < k + 1 ==> IsSchemeChar(s[j]) by {
          forall j | 0 <= j < k + 1 ensures IsSchemeChar(s[j]) {
            if j > 0 { assert s[j] == s[1..][j - 1]; }
          }
        }
      }
      if exists k :: 0 <= k < |s| && s[k] == ':' && forall j :: 0 <= j < k ==> IsSchemeChar(s[j]) {
        var k :| 0 <= k < |s| && s[k] == ':' && forall j :: 0 <= j < k ==> IsSchemeChar(s[j]);
        assert k > 0;
        assert IsSchemeChar(s[0]);
        assert s[1..][k - 1] == ':';
        assert forall j :: 0 <= j < k - 1 ==> IsSchemeChar(s[1..][j]) by {
          forall j | 0 <= j < k - 1 ensures IsSchemeChar(s[1..][j]) {
            assert s[1..][j] == s[j + 1];
          }
        }
      }
    }
  }

  /** The scanning test and the regular expression accept the same strings. */
  lemma HasSchemeIffRegex(s: string)
    ensures HasScheme(s) <==> MatchesSchemeRegex(s)
  {
    if |s| > 0 {
      ColonAfterSchemeCharsIff(s[1..]);
      if HasScheme(s) {
        var k :| 0 <= k < |s[1..]| && s[1..][k] == ':' && forall j :: 0 <= j < k ==> IsSchemeChar(s[1..][j]);
        assert forall j :: 1 <= j < k + 1 ==> s[j] == s[1..][j - 1];
        assert SchemeColonAt(s, k + 1);
      }
      if MatchesSchemeRegex(s) {
        var k :| SchemeColonAt(s, k);
        assert s[1..][k - 1] == ':';
        assert forall j :: 0 <= j < k - 1 ==> s[1..][j] == s[j + 1];
      }
    }
  }

  /** A scheme prefix stays a scheme prefix whatever follows it. */
  lemma HasSchemeAppend(s: string, t: string)
    requires HasScheme(s)
    ensures HasScheme(s + t)
  {
    HasSchemeIffRegex(s);
    var k :| SchemeColonAt(s, k);
    assert SchemeColonAt(s + t, k);
    HasSchemeIffRegex(s + t);
  }

  lemma HttpsHasScheme(t: string)
    ensures HasScheme("https:" + t)
  {
    assert SchemeColonAt("https:", 5);
    HasSchemeIffRegex("https:");
    HasSchemeAppend("https:", t);
  }

  /** `s.replace(/^\/+/, "")`: drops the leading slashes. */
  function StripLeadingSlashes(s: string): (r: string)
    ensures |r| <= |s| && r == s[|s| - |r|..]
    ensures forall i :: 0 <= i < |s| - |r| ==> s[i] == '/'
    ensures r == [] || r[0] != '/'
  {
    if s != [] && s[0] == '/' then
      var r := StripLeadingSlashes(s[1..]);
      assert forall i :: 1 <= i < |s| - |r| ==> s[i] == s[1..][i - 1];
      r
    else s
  }

  /** `normalizeUrl(url)`. Only the empty string maps to the empty string;
      anything else, whitespace-only input included, becomes a trimmed string
      that starts with a lower-case scheme and a colon. */
  function NormalizeUrl(url: string): (r: string)
    ensures url == [] <==> r == []
    ensures url != [] ==> HasScheme(r) && IsTrimmed(r)
  {
    if url == [] then []
    else
      var trimmed := Trim(url);
      if HasScheme(trimmed) then trimmed
      else if |trimmed| >= 2 && trimmed[..2] == "//" then
        ProtocolRelativeBranch(trimmed);
        "https:" + trimmed
      else
        var rest := StripLeadingSlashes(trimmed);
        SlashStrippedBranch(trimmed, rest);
        "https://" + rest
  }

  lemma ProtocolRelativeBranch(t: string)
    requires IsTrimmed(t) && |t| >= 2 && t[..2] == "//"
    ensures HasScheme("https:" + t) && IsTrimmed("https:" + t)
  {
    HttpsHasScheme(t);
    PrefixKeepsTrimmed("https:", t);
  }

  lemma SlashStrippedBranch(t: string, rest: string)
    requires IsTrimmed(t) && |rest| <= |t| && rest == t[|t| - |rest|..]
    ensures HasScheme("https://" + rest) && IsTrimmed("https://" + rest)
  {
    HttpsHasScheme("//" + rest);
    assert "https://" + rest == "https:" + ("//" + rest);
    if rest != [] {
      assert rest[|rest| - 1] == t[|t| - 1];
    }
    PrefixKeepsTrimmed("https://", rest);
  }

  /** A non-blank prefix in front of a string that does not end in whitespace
      gives a trimmed string. */
  lemma PrefixKeepsTrimmed(p: string, t: string)
    requires p != [] && !IsSpace(p[0]) && !IsSpace(p[|p| - 1])
    requires t == [] || !IsSpace(t[|t| - 1])
    ensures IsTrimmed(p + t)
  {
    if t != [] {
      assert (p + t)[|p + t| - 1] == t[|t| - 1];
    }
  }

  /** The three outcomes, stated against the regular expressions themselves:
      a schemed input comes back trimmed; a protocol-relative `//` input gets
      `https:`; anything else gets `https://` in front of what remains after
      the leading slashes. */
  lemma NormalizeUrlCases(url: string)
    requires url != []
    ensures MatchesSchemeRegex(Trim(url)) ==> NormalizeUrl(url) == Trim(url)
    ensures !MatchesSchemeRegex(Trim(url)) && StartsWith(Trim(url), "//") ==>
      NormalizeUrl(url) == "https:" + Trim(url)
    ensures !MatchesSchemeRegex(Trim(url)) && !StartsWith(Trim(url), "//") ==>
      exists n :: 0 <= n <= |Trim(url)| && (forall i :: 0 <= i < n ==> Trim(url)[i] == '/')
        && (n == |Trim(url)| || Trim(url)[n] != '/')
        && NormalizeUrl(url) == "https://" + Trim(url)[n..]
  {
    var t := Trim(url);
    HasSchemeIffRegex(t);
    if !HasScheme(t) && !StartsWith(t, "//") {
      var rest := StripLeadingSlashes(t);
      var n := |t| - |rest|;
      assert t[n..] == rest;
    }
  }

  /** Normalising a normalised link changes nothing. */
  lemma NormalizeUrlIdempotent(url: string)
    ensures NormalizeUrl(NormalizeUrl(url)) == NormalizeUrl(url)
  {
  }

  /** A trimmed link without any colon (a bare host such as `example.com`)
      gets `https://` and is otherwise kept. */
  lemma NormalizeBareHost(url: string)
    requires url != [] && IsTrimmed(url) && url[0] != '/' && ':' !in url
    ensures NormalizeUrl(url) == "https://" + url
  {
    assert forall k :: 0 <= k < |url| ==> url[k] != ':';
    HasSchemeIffRegex(url);
  }

  /** The scheme test is case-sensitive: a link starting with an upper-case
      letter (`HTTP://x`) is treated as a host name and gets `https://` too. */
  lemma NormalizeUpperCaseScheme(url: string)
    requires url != [] && IsTrimmed(url) && 'A' <= url[0] <= 'Z'
    ensures NormalizeUrl(url) == "https://" + url
  {
  }

  /** Whitespace alone is not the empty string, so it still gets a scheme and
      nothing else. */
  lemma NormalizeBlank(url: string)
    requires url != [] && AllSpace(url)
    ensures NormalizeUrl(url) == "https://"
  {
  }
}

=== FILE: wrappers.dfy ===
/** Plain wrappers used across the model: an optional value and a
    success-or-error result, matched on directly. */
module Wrappers {

  /** A value that may be absent (JavaScript's `null`). */
  datatype Option<+T> = None | Some(value: T)

  /** The outcome of an operation that can throw. */
  datatype Result<+R, +E> = Success(value: R) | Failure(error: E)
}
